=== FILE: README.md ===
# Tech-community event and profile core, in Dafny

This project models the client-side core of the Tech-community web app, a
student community site. Students request events, browse public events and
look up each other's profiles. The data comes either from bundled JSON
snapshots or from a remote document store. The model covers these parts:

- **Entities** (`EventModel`, `UserModel`): the event record with its
  enums (status Pending / Approved / Closed, format Individual / Team /
  MultiEvent, XP-awarding status) and the user record. TypeScript's optional
  keys are explicit. `Nullable<T>` distinguishes an absent key, `null` and a
  value. `EventModel.Overlay` is the object spread `{ ...a, ...b }` over two
  events.
- **Snapshot data adapter** (`Documents`, `StaticDataAdapter`,
  `DataAdapter`): records are JSON objects held in one cache per collection
  (events keyed by `id`, students by `uid`):
  - each collection is loaded from its file on first use;
  - reads, creates, updates, event deletes and filter queries work on the
    cache;
  - the adapter contract is the closed `Operation` type;
  - `getDataAdapter` is a memoizing factory over the configured data source.
- **Event queries** (`EventQueries`): read the bundled event list and
  apply the visibility rule: Approved and Closed events are public, and a
  Pending event is visible only to the student who requested it.
  `QueryParity` proves that the adapter's filter queries agree with these
  direct queries on mirrored data. `FetchStudentEventsWithFallback` is
  modelled as the same function as `FetchStudentEvents`, as in the source.
- **Event store** (`EventStore`): the client store's `events`,
  `myEventRequests` and viewed-event state under merge, request, edit,
  delete and status-write actions.
- **Profiles** (`ProfileService`, `ProfileStore`): the name lookup with its
  `"User (xxxxx)"` fallback, the one-hour name cache, and the profile-list
  short-circuit.
- **App store and signup** (`AppStore`, `SignupUtils`): the post-login
  redirect guard, its consumption and restoration, the online-status
  toggle, and the batch-year window.

Effects are parameters, which keeps every operation a pure function:

- the clock (`now`, `createdAt`, `fetchedAt`, `currentYear`);
- the generated id;
- what a file fetch yields (`Load`);
- what a service call yields (`Option`/`Result`; `None`/`Failure` means it
  throws);
- the bundled JSON lists (`events`, `users`, `bundle`);
- the signed-in student's uid (`currentUid`).

Each store action takes the state and returns the new state together with
the action's return value.

The code differs from a plain reading of the app's design in these places,
and the model follows the code:

- No status transition is ever checked. `updateEventStatus` writes any
  status.
- There is no Rejected status, although the lifecycle timestamps have a
  `rejectedAt` key.
- Deleting a missing id from the adapter succeeds and changes nothing.
- Using an adapter that has not loaded yet is not an error: the adapter
  loads on demand.
- After the unchecked, in-place write, `updateEventStatus` refreshes the
  event from the bundled list. Which status survives depends on object
  identity:
  - When the store entry is the bundled object itself, the write also
    changes the bundle, so the refresh reads the new status back
    (`EventStore.StatusWriteSticksWhenShared`). This is the case for an
    entry that `fetchEvents` loaded or `_updateLocalEvent` appended.
  - When the entry is a separate copy, a public bundled copy's status
    replaces the written one (`EventStore.StatusWriteOverwrittenByRefresh`).
    An entry that `_updateLocalEvent` merged by spreading is such a copy.

## Model

| member | source | states |
|---|---|---|
| EventModel.ParseStatus | src/models/event.ts:6-10 | a stored status text reads as a status iff it is one of the three enum spellings, and then spells back to the same text |
| EventModel.ParseFormat | src/models/event.ts:12-16 | a format text reads as a format iff it is Individual, Team or MultiEvent, and spells back to the same text |
| EventModel.ParsePhaseFormat | src/models/event.ts:24 | a phase's format text is accepted iff it is "Individual" or "Team"; a phase can never be MultiEvent |
| EventModel.ParseXpStatus | src/models/event.ts:143 | the XP-awarding status is exactly one of pending, in_progress, completed, failed; any other text is refused |
| EventModel.EnumNamesRoundTrip | src/models/event.ts:6-16 | every status, format and XP status reads back from its stored spelling as itself |
| EventModel.NoRejectedStatus | src/models/event.ts:6-24 | "Rejected" is not a status; "MultiEvent" is an event format but not a phase format |
| EventModel.Overlay | src/stores/eventStore.ts:42 | the spread of two events takes id, details, status, requestedBy, votingOpen and every present optional key from the later event, keeps the earlier value of an absent key, and is the later event when it sets every key |
| EventModel.OverlayIdempotent | src/stores/eventStore.ts:42 | spreading the same event twice gives the same record as spreading it once; spreading an event over itself is the identity |
| Documents.Spread | src/services/dataAdapter/StaticDataAdapter.ts:58 | a patched record has exactly the keys of both; the patch's values win and every other key keeps its old value |
| Documents.UnmatchableEntries | src/services/dataAdapter/StaticDataAdapter.ts:113-119 | a filter entry on a missing key, with an object value, or with an empty list matches no record |
| Documents.EmptyFilterMatches | src/services/dataAdapter/StaticDataAdapter.ts:113 | an empty filter matches every record |
| StaticDataAdapter.GetAll | src/services/dataAdapter/StaticDataAdapter.ts:18-31 | a set cache is returned without loading; otherwise a successful load is cached and returned, and a failed load caches nothing; a response that is not ok fails with "Failed to load <file>: <status text>", while a rejected fetch or a body that is not JSON fails with the raised error's own message |
| StaticDataAdapter.LoadsOnce | src/services/dataAdapter/StaticDataAdapter.ts:26-31 | after one successful load, later reads return the same records whatever the file would now yield |
| StaticDataAdapter.Get | src/services/dataAdapter/StaticDataAdapter.ts:33-36 | null iff no record has the id; otherwise the first record that has it |
| StaticDataAdapter.Create | src/services/dataAdapter/StaticDataAdapter.ts:38-50 | the new record is the input with the generated key set; it is appended to the cache, the earlier records are unchanged, and the other collection is untouched |
| StaticDataAdapter.CreateThenGet | src/services/dataAdapter/StaticDataAdapter.ts:33-50 | a created record is found again by its generated id when no earlier record carries that id |
| StaticDataAdapter.Update | src/services/dataAdapter/StaticDataAdapter.ts:52-63 | an absent id fails with "not found" and leaves the cache as loaded; otherwise only the first matching record changes, to the spread of the patch over it, and the length is kept |
| StaticDataAdapter.DeleteEvent | src/services/dataAdapter/StaticDataAdapter.ts:65-71 | no record with the id remains; every other record keeps its multiplicity and its relative order; students are untouched |
| StaticDataAdapter.DeleteIdempotent | src/services/dataAdapter/StaticDataAdapter.ts:65-71 | deleting an id twice leaves the same state as deleting it once |
| StaticDataAdapter.DeleteMissingIsNoOp | src/services/dataAdapter/StaticDataAdapter.ts:65-71 | deleting an id that no event carries succeeds and leaves the loaded cache unchanged |
| StaticDataAdapter.Query | src/services/dataAdapter/StaticDataAdapter.ts:110-134 | the result is the records satisfying every filter entry (a list value is membership, any other value strict equality), each with its multiplicity in the cache, in cache order |
| StaticDataAdapter.EmptyQueryReturnsAll | src/services/dataAdapter/StaticDataAdapter.ts:110-121 | a query with no entries returns every cached record, in order |
| DataAdapter.Perform | src/services/dataAdapter/IDataAdapter.ts:7-24 | every contract operation changes at most the collection it targets |
| DataAdapter.StudentsNeverRemoved | src/services/dataAdapter/IDataAdapter.ts:7-24 | no operation of the contract shrinks the cached student list: the contract offers delete for events only |
| DataAdapter.GetDataAdapter | src/services/dataAdapter/IDataAdapter.ts:29-47 | a memoized instance is returned as is; otherwise "static" and "firebase" select and memoize their adapter, and any other source fails with "Unknown data source: <source>" and memoizes nothing |
| DataAdapter.SelectionIsMemoized | src/services/dataAdapter/IDataAdapter.ts:32-34 | after one successful selection every later call returns the same instance, whatever source it is configured with |
| DataAdapter.UnknownSourceRetryable | src/services/dataAdapter/IDataAdapter.ts:42-44 | a failed selection leaves nothing behind: a retry with a valid source behaves as a first call |
| EventQueries.FetchMyEventRequests | src/services/eventService/eventQueries.ts:17-25 | an empty id gives no events; otherwise exactly the Pending events requested by the student, each with its multiplicity, in list order |
| EventQueries.FetchSingleEventForStudent | src/services/eventService/eventQueries.ts:33-51 | fails iff the id is empty; returns an event iff the first event with the id is public or is the signed-in student's Pending request, and then it is that first event; a returned Pending event was requested by the viewer |
| EventQueries.PendingEventsStayPrivate | src/services/eventService/eventQueries.ts:41-50 | a signed-out viewer never receives a Pending event |
| EventQueries.FetchPubliclyViewableEvents | src/services/eventService/eventQueries.ts:56-61 | exactly the Approved and Closed events, each with its multiplicity, in list order |
| EventQueries.HasPendingRequest | src/services/eventService/eventQueries.ts:68-76 | an empty id has no pending request; any other id has one iff some event is a Pending event requested by it |
| EventQueries.HasPendingIffRequests | src/services/eventService/eventQueries.ts:68-76 | a student has a pending request iff their request list is non-empty |
| EventQueries.FetchStudentEvents | src/services/eventService/eventQueries.ts:83-95 | an empty id gives no events; otherwise exactly the events listing the student as participant, organizer or team member, where a missing list counts as empty, in list order |
| EventQueries.FetchStudentEventsWithFallback | src/services/eventService/eventQueries.ts:102-104 | gives the same answer as fetchStudentEvents for every list and id |
| EventQueries.QueriesPreserveOrder | src/services/eventService/eventQueries.ts:21-23 | the list queries keep list order: querying a concatenation concatenates the answers |
| QueryParity.PublicQueryMirrorsPublicEvents | src/services/eventService/eventQueries.ts:56-61 | the adapter query with status in [Approved, Closed] returns, position by position, the documents of the events fetchPubliclyViewableEvents returns |
| QueryParity.RequestQueryMirrorsMyRequests | src/services/eventService/eventQueries.ts:17-25 | the adapter query on requester and Pending status returns, position by position, the documents of the student's requests |
| QueryParity.AdapterPublicQuery | src/services/dataAdapter/StaticDataAdapter.ts:110-121 | through a loaded adapter, the public-status query mirrors fetchPubliclyViewableEvents |
| EventStore.UpdateList | src/stores/eventStore.ts:39-46 | an event whose id is present is spread over the first entry with it, at that position; otherwise it is appended |
| EventStore.UpdateListKeepsOthers | src/stores/eventStore.ts:39-46 | merging an event leaves every entry with another id at its multiplicity |
| EventStore.UpdateLocalEvent | src/stores/eventStore.ts:38-63 | a public event is merged into `events` (spread over the first entry with its id, or appended), any other event is removed from it; likewise for `myEventRequests` with the signed-in student's own Pending request; so a list holds the id iff that condition holds; entries with other ids keep their multiplicity; the viewed event absorbs the event iff the ids agree; the errors do not change |
| EventStore.UpdateLocalEventIdempotent | src/stores/eventStore.ts:38-63 | applying the same event twice leaves the store as applying it once |
| EventStore.LocalUpdateSameOthers | src/stores/eventStore.ts:38-63 | in both lists the entries with other ids stay as they were and in the same order |
| EventStore.LocalUpdateKeepsPublicCopy | src/stores/eventStore.ts:48-52 | after a merge, the first entry of `events` with the event's id is public and carries the event's status |
| EventStore.RequestIdsDistinct | src/stores/eventStore.ts:126 | requests made at different milliseconds get different ids |
| EventStore.NewRequest | src/stores/eventStore.ts:127-133 | a new request is Pending, requested by the student, carries the form's details and a creation timestamp, and is not open for voting |
| EventStore.RequestNewEvent | src/stores/eventStore.ts:118-144 | without a signed-in student, only the error "User not authenticated." changes and null is returned; otherwise the request `NewRequest` builds (Pending, by the student, with id "evt_" and the clock, the form's details and only a creation timestamp) is appended to both lists and its id returned, and the viewed event and both errors are unchanged |
| EventStore.ApplyForm | src/stores/eventStore.ts:153-160 | the first entry with the id takes the form's details; nothing else changes |
| EventStore.EditMyEventRequest | src/stores/eventStore.ts:146-169 | without a student only the error changes and false is returned; otherwise both lists get the form at the first matching entry, with no ownership or status check, and the viewed event and both errors are unchanged |
| EventStore.WithoutId | src/stores/eventStore.ts:51 | no entry with the id remains; every other entry keeps its multiplicity and its relative order |
| EventStore.DeleteEventRequest | src/stores/eventStore.ts:171-189 | without a student only the error changes and false is returned; otherwise both lists lose every entry with the id, and the others keep their multiplicity and their relative order; the viewed event is cleared iff it has that id, and both errors are unchanged |
| EventStore.DeleteEventRequestTwice | src/stores/eventStore.ts:171-189 | deleting the same request a second time changes nothing, signed in or not |
| EventStore.FetchEventDetails | src/stores/eventStore.ts:99-116 | an empty id records "Failed to fetch event ." and returns null; otherwise an event is returned iff the first bundled event with the id is visible to the student, and it is that event: merged into both lists as by `_updateLocalEvent` and made the viewed event; a null answer only clears the fetch error; the action error never changes |
| EventStore.SetStatus | src/stores/eventStore.ts:193-195 | the first event with the id takes the requested status, whatever it was; other entries and an absent id are untouched |
| EventStore.UpdateEventStatus | src/stores/eventStore.ts:191-199 | without a current student only the error changes; with no event of that id nothing changes; otherwise the bundle is written too iff the entry is the bundled object; if the refresh returns the event, it becomes the viewed event, `events` holds the id iff it is public, `myEventRequests` holds it iff it is the student's own Pending request, and the first entry of `events` carries its status; otherwise the first entry keeps the written status and only the fetch error may change; in both lists the entries with other ids stay as they were and in the same order; the action error never changes |
| EventStore.StatusWriteKeptWithoutRefresh | src/stores/eventStore.ts:191-198 | when the bundled list has no event with the id, the bundle is unchanged and the written status stays |
| EventStore.StatusWriteOverwrittenByRefresh | src/stores/eventStore.ts:195-196 | when the store entry is a separate copy and the bundled list has a public copy, that copy's status replaces the written one |
| EventStore.StatusWriteSticksWhenShared | src/stores/eventStore.ts:195-196 | when the store entry is the bundled object itself, the first entry with the id carries the new status after the refresh, whatever the bundle held |
| EventStore.PastEvents | src/stores/eventStore.ts:35 | exactly the Closed entries of `events`, each with its multiplicity, in list order |
| ProfileService.FetchStudentData | src/services/profileService.ts:10-19 | null iff no user has the uid; otherwise the first such user with the default XP data for the uid |
| ProfileService.Prefix | src/services/profileService.ts:51 | `substring(0, n)`: the first n characters, or the whole string when it is shorter |
| ProfileService.DisplayName | src/services/profileService.ts:50-51 | the first matching user's non-empty name, else "User (" + the id's first five characters + ")"; never empty |
| ProfileService.FallbackNameShape | src/services/profileService.ts:51 | an unknown id gets the fallback name, of length 7 plus at most five |
| ProfileService.UniqueIds | src/services/profileService.ts:42 | the distinct non-empty input ids, with no repeats |
| ProfileService.AssignNames | src/services/profileService.ts:49-52 | every given id is mapped to its display name; other keys are kept |
| ProfileService.FetchUserNamesBatch | src/services/profileService.ts:41-55 | the keys are exactly the non-empty input ids (none for an empty or all-empty input), each mapped to its display name |
| ProfileService.FetchAllStudentProfiles | src/services/profileService.ts:61-63 | the bundled user list, unchanged |
| ProfileService.NamesIgnoreRepeatsAndOrder | src/services/profileService.ts:42 | inputs with the same ids in any order or repetition give the same map |
| ProfileService.FetchLeaderboardData | src/services/profileService.ts:69-77 | one entry per user, in order, each the user with default XP data |
| ProfileService.LeaderboardAgreesWithProfile | src/services/profileService.ts:10-19 | the profile found for a uid is the leaderboard entry of the first user with that uid |
| ProfileStore.StudentIdOf | src/stores/profileStore.ts:26 | the student id is the current uid when it is present and non-empty, and null otherwise |
| ProfileStore.CacheHits | src/stores/profileStore.ts:92-96 | exactly the input ids with a fresh entry (younger than 3,600,000 ms), mapped to their cached names |
| ProfileStore.IdsToFetch | src/stores/profileStore.ts:92-99 | exactly the input ids without a fresh entry, in input order, repeats kept |
| ProfileStore.Remember | src/stores/profileStore.ts:105-107 | every fetched id is cached with the fetch time; other entries are untouched |
| ProfileStore.FetchUserNamesBatch | src/stores/profileStore.ts:88-113 | no request iff every id is fresh; the request is the ids to fetch; on failure the cache stays, the error is "Failed to fetch user names." and only hits are returned; on success the fetched names overlay the hits and are cached |
| ProfileStore.NamesFromBundledService | src/stores/profileStore.ts:88-113 | against the bundled service every non-empty id gets its fresh cached name, or else its display name |
| ProfileStore.SecondLookupWithinHourHitsCache | src/stores/profileStore.ts:94 | asking again for the same non-empty ids within the hour of a successful fetch issues no request |
| ProfileStore.FetchAllStudentProfiles | src/stores/profileStore.ts:71-86 | a non-empty held list is returned without fetching; otherwise the fetched list is held and returned, or the error "Failed to fetch all user profiles." is set and the answer is empty |
| ProfileStore.ProfilesFetchedOnce | src/stores/profileStore.ts:72-79 | the store returns the service's list unchanged, and after that it never fetches again |
| AppStore.SetRedirectAfterLogin | src/stores/appStore.ts:62-70 | a non-empty path starting with "/" but not "//" and other than "/login" is stored in memory and session; null clears both; any other input changes nothing |
| AppStore.RefusedRedirects | src/stores/appStore.ts:63 | "", "http://x", "//host" and "/login" leave the state unchanged |
| AppStore.RejectedPathChangesNothing | src/stores/appStore.ts:63-70 | every path the guard refuses leaves the state, and the next read, as they were |
| AppStore.GetRedirectAfterLogin | src/stores/appStore.ts:72-76 | returns the in-memory redirect when it is non-empty and not "/login"; an in-memory "/login" gives "/home" and hides the session copy; with nothing in memory it returns the session redirect when that is non-empty and not "/login", else "/home"; the result is never empty or "/login"; both copies are cleared |
| AppStore.RedirectConsumedOnce | src/stores/appStore.ts:74 | right after a read, the next read gives "/home" |
| AppStore.RestoreRedirect | src/stores/appStore.ts:90-93 | a non-empty session redirect is copied into memory; otherwise nothing changes |
| AppStore.RedirectSurvivesReload | src/stores/appStore.ts:62-93 | an accepted path stored before a reload is restored from the session and read back unchanged |
| AppStore.SetNetworkOnlineStatus | src/stores/appStore.ts:39-48 | the status is set; a notice is raised iff it changed: a success notice when coming online, a warning when going offline |
| AppStore.NetworkStatusSettles | src/stores/appStore.ts:40-41 | setting the same status twice is setting it once and the second call raises no notice; going offline and back restores the state |
| SignupUtils.IsValidBatchYear | src/utils/signupUtils.ts:8-11 | a batch year is valid iff it lies within five years of the current year, both ends included |
| SignupUtils.ElevenValidYears | src/utils/signupUtils.ts:10 | exactly eleven years are valid; the current year is valid and the years six away are not |

## Left out

- The remote document-store adapter (`FirebaseDataAdapter.ts`) and `firebase.ts`: only their selection by `getDataAdapter` is modelled, because their behaviour lives in a foreign SDK.
- Writes to `localStorage` by the snapshot adapter: their failure is caught and ignored, so they never change the adapter's behaviour.
- Notifications, except that `SetNetworkOnlineStatus` returns its notice: they are a side effect only.
- The `isLoading` and `isSubmitting` flags: they are set and reset inside each action and do not affect its result.
- `upcomingEvents`: it compares a date string with the wall clock, which this model does not represent.
- `fetchEvents`, the store's own `fetchMyEventRequests` action, `clearError`, and the `allPubliclyViewableEvents` and `currentEventDetails` getters: these plain assignments of a service answer are not part of this model. `allPubliclyViewableEvents` returns `events` unfiltered.
- `handleAuthStateChange`: the signed-in student enters the model only as the parameter `currentUid`.
- Theme handling, the `forceProfileRefetch`, `isProcessingLogin` and app-version flags of the app store, and the router: they are unrelated to the modelled operations.
- The stubbed services (event lifecycle, voting, participation, teams, creation, validation, XP, portfolio, auth), and `validateStudentId`, `isBatchSignupActive` and `validateSignupToken` in signupUtils: their bodies only log and return constants.
- eventStore.ts imports `EventFormData` from models/event.ts, whose text does not declare it. A form is modelled as the event's details. A new request therefore leaves every optional key absent and `votingOpen` false, where the source leaves `votingOpen` undefined.
- EventStore.UpdateEventStatus: object identity is modelled only through the `shared` flag. It says whether the written entry is the bundled list's first object with that id. The same object may also sit in `myEventRequests` or the viewed event, and those copies are not written. `events` may also be the bundled array itself, so a later push would grow the bundle. Neither effect is modelled, because the model keeps values rather than references.
- A key set to `undefined` is treated like an absent key.
- JavaScript numbers are modelled as integers.
- ProfileService.Prefix: it counts characters, while JavaScript's `substring` counts UTF-16 code units. An id with characters outside the Basic Multilingual Plane would be cut differently. Strings here are plain character sequences with no encoding.
- The current year, the clock, and `Date.now()` per id in the name cache are parameters. One `now` serves a whole batch lookup.
- The snapshot adapter is assumed never to hold objects or arrays that a filter shares by reference. Such values never match a filter here, where JavaScript could match a shared reference.
- `getDefaultXPData` is declared outside the modelled files and is the parameter `defaultXp`.

=== FILE: app_store.dfy ===
/** The post-login redirect and online flag of src/stores/appStore.ts. The
    browser's session storage entry for the redirect is the field
    `sessionRedirect`; notifications are returned rather than shown. */
module AppStore {
  import opened Wrappers

  datatype AppState = AppState(
    isOnline: bool,
    redirectAfterLogin: Option<string>,
    sessionRedirect: Option<string>)

  datatype NoticeKind = SuccessNotice | WarningNotice

  datatype Notice = Notice(message: string, kind: NoticeKind)

  const HomePath: string := "/home"
  const LoginPath: string := "/login"

  predicate StartsWith(s: string, prefix: string) {
    |prefix| <= |s| && s[..|prefix|] == prefix
  }

  /** A redirect the store accepts: a non-empty local path, not
      protocol-relative, and not the login page. */
  predicate IsAcceptedRedirect(path: string) {
    path != "" && StartsWith(path, "/") && !StartsWith(path, "//") && path != LoginPath
  }

  /** setRedirectAfterLogin: an accepted path is stored in memory and in the
      session; null clears both; anything else changes nothing. */
  function SetRedirectAfterLogin(s: AppState, path: Option<string>): (r: AppState)
    ensures r.isOnline == s.isOnline
    ensures path.Some? && IsAcceptedRedirect(path.value) ==>
      r.redirectAfterLogin == path && r.sessionRedirect == path
    ensures path.None? ==> r.redirectAfterLogin.None? && r.sessionRedirect.None?
    ensures path.Some? && !IsAcceptedRedirect(path.value) ==> r == s
  {
    if path.Some? && IsAcceptedRedirect(path.value) then
      s.(redirectAfterLogin := path, sessionRedirect := path)
    else if path.None? then
      s.(redirectAfterLogin := None, sessionRedirect := None)
    else s
  }

  /** Reading a possibly-null string as a JavaScript truthy value. */
  predicate Truthy(v: Option<string>) {
    v.Some? && v.value != ""
  }

  /** getRedirectAfterLogin: the in-memory redirect, else the session one,
      when it is non-empty and not the login page, else the home page; the
      stored redirect is cleared either way. */
  function GetRedirectAfterLogin(s: AppState): (r: (AppState, string))
    ensures r.0 == s.(redirectAfterLogin := None, sessionRedirect := None)
    ensures r.1 != "" && r.1 != LoginPath
    ensures Truthy(s.redirectAfterLogin) && s.redirectAfterLogin.value != LoginPath ==>
      r.1 == s.redirectAfterLogin.value
    ensures !Truthy(s.redirectAfterLogin) && Truthy(s.sessionRedirect) && s.sessionRedirect.value != LoginPath ==>
      r.1 == s.sessionRedirect.value
    ensures r.1 != HomePath ==> Some(r.1) == s.redirectAfterLogin || Some(r.1) == s.sessionRedirect
    ensures Truthy(s.redirectAfterLogin) && s.redirectAfterLogin.value == LoginPath ==> r.1 == HomePath
    ensures !Truthy(s.redirectAfterLogin) && !(Truthy(s.sessionRedirect) && s.sessionRedirect.value != LoginPath) ==>
      r.1 == HomePath
  {
    var stored := if Truthy(s.redirectAfterLogin) then s.redirectAfterLogin else s.sessionRedirect;
    var cleared := SetRedirectAfterLogin(s, None);
    (cleared, if Truthy(stored) && stored.value != LoginPath then stored.value else HomePath)
  }

  /** The restore step of initAppListeners: a non-empty session redirect is
      copied into memory. */
  function RestoreRedirect(s: AppState): (r: AppState)
    ensures Truthy(s.sessionRedirect) ==> r.redirectAfterLogin == s.sessionRedirect
    ensures !Truthy(s.sessionRedirect) ==> r == s
    ensures r.sessionRedirect == s.sessionRedirect && r.isOnline == s.isOnline
  {
    if Truthy(s.sessionRedirect) then s.(redirectAfterLogin := s.sessionRedirect) else s
  }

  /** A redirect is read once: right after a read, the next read gives the
      home page. */
  lemma RedirectConsumedOnce(s: AppState)
    ensures GetRedirectAfterLogin(GetRedirectAfterLogin(s).0).1 == HomePath
  {
  }

  /** An accepted path survives a reload: stored, restored into a fresh
      store from the session, and read back unchanged. */
  lemma RedirectSurvivesReload(s: AppState, path: string, online: bool)
    requires IsAcceptedRedirect(path)
    ensures var stored := SetRedirectAfterLogin(s, Some(path));
      var reloaded := RestoreRedirect(AppState(online, None, stored.sessionRedirect));
      GetRedirectAfterLogin(reloaded).1 == path
  {
  }

  /** Any path the guard refuses leaves the store as it was. */
  lemma RejectedPathChangesNothing(s: AppState, path: string)
    requires !IsAcceptedRedirect(path)
    ensures SetRedirectAfterLogin(s, Some(path)) == s
    ensures GetRedirectAfterLogin(SetRedirectAfterLogin(s, Some(path))) == GetRedirectAfterLogin(s)
  {
  }

  /** The paths refused by the redirect guard. */
  lemma RefusedRedirects(s: AppState)
    ensures SetRedirectAfterLogin(s, Some("")) == s
    ensures SetRedirectAfterLogin(s, Some("http://x")) == s
    ensures SetRedirectAfterLogin(s, Some("//host")) == s
    ensures SetRedirectAfterLogin(s, Some(LoginPath)) == s
  {
    assert "http://x"[..1] == "h";
    assert StartsWith("//host", "//");
  }

  /** setNetworkOnlineStatus: nothing happens when the status is unchanged;
      otherwise the status is set and a back-online or offline notice
      raised. */
  function SetNetworkOnlineStatus(s: AppState, status: bool): (r: (AppState, Option<Notice>))
    ensures r.0 == s.(isOnline := status)
    ensures r.1.Some? <==> s.isOnline != status
    ensures r.1.Some? && status ==> r.1.value.kind == SuccessNotice
    ensures r.1.Some? && !status ==> r.1.value.kind == WarningNotice
  {
    if s.isOnline == status then (s, None)
    else if status then (s.(isOnline := status), Some(Notice("You are back online!", SuccessNotice)))
    else (s.(isOnline := status), Some(Notice("You are offline. Some features are limited.", WarningNotice)))
  }

  /** Setting the same status twice is setting it once, and the second call
      raises no notice; going offline and back online restores the state. */
  lemma NetworkStatusSettles(s: AppState, status: bool)
    ensures var once := SetNetworkOnlineStatus(s, status);
      && SetNetworkOnlineStatus(once.0, status) == (once.0, None)
      && once.0.isOnline == status
    ensures var off := SetNetworkOnlineStatus(s, !s.isOnline);
      SetNetworkOnlineStatus(off.0, s.isOnline).0 == s
  {
  }
}

=== FILE: data_adapter.dfy ===
/** The adapter contract and its factory, src/services/dataAdapter/IDataAdapter.ts.

    The contract is the closed set of operations a caller may ask of an
    adapter; it offers deletion for events only. The factory picks an adapter
    from the configured data source on its first successful call and hands
    back that same instance from then on. */
module DataAdapter {
  import opened Wrappers
  import opened Documents
  import SA = StaticDataAdapter

  /** One request through the adapter contract. There is no student delete. */
  datatype Operation =
    | GetEvents
    | GetEvent(id: string)
    | CreateEvent(record: Doc, newId: string)
    | UpdateEvent(id: string, patch: Doc)
    | DeleteEvent(id: string)
    | GetStudents
    | GetStudent(id: string)
    | CreateStudent(record: Doc, newId: string)
    | UpdateStudent(id: string, patch: Doc)
    | QueryEvents(filter: QueryFilter)
    | QueryStudents(filter: QueryFilter)

  /** The collection an operation reads and possibly writes. */
  function Target(op: Operation): SA.Collection {
    match op
    case GetStudents | GetStudent(_) | CreateStudent(_, _) | UpdateStudent(_, _) | QueryStudents(_) => SA.Students
    case _ => SA.Events
  }

  /** What an operation hands back on success. */
  datatype Reply = Records(docs: seq<Doc>) | Record(found: Option<Doc>) | Created(doc: Doc) | Done

  /** Runs one contract operation on the snapshot adapter; `load` is what the
      target collection's file would yield. */
  function Perform(a: SA.Adapter, op: Operation, load: SA.Load): (r: (SA.Adapter, Result<Reply, SA.AdapterError>))
    ensures forall c | c != Target(op) :: SA.CacheOf(r.0, c) == SA.CacheOf(a, c)
  {
    match op
    case GetEvents => Lift(SA.GetAll(a, SA.Events, load), (d: seq<Doc>) => Records(d))
    case GetEvent(id) => Lift(SA.Get(a, SA.Events, load, id), (d: Option<Doc>) => Record(d))
    case CreateEvent(record, newId) => Lift(SA.Create(a, SA.Events, load, record, newId), (d: Doc) => Created(d))
    case UpdateEvent(id, patch) => Lift(SA.Update(a, SA.Events, load, id, patch), (_: ()) => Done)
    case DeleteEvent(id) => Lift(SA.DeleteEvent(a, load, id), (_: ()) => Done)
    case GetStudents => Lift(SA.GetAll(a, SA.Students, load), (d: seq<Doc>) => Records(d))
    case GetStudent(id) => Lift(SA.Get(a, SA.Students, load, id), (d: Option<Doc>) => Record(d))
    case CreateStudent(record, newId) => Lift(SA.Create(a, SA.Students, load, record, newId), (d: Doc) => Created(d))
    case UpdateStudent(id, patch) => Lift(SA.Update(a, SA.Students, load, id, patch), (_: ()) => Done)
    case QueryEvents(filter) => Lift(SA.Query(a, SA.Events, load, filter), (d: seq<Doc>) => Records(d))
    case QueryStudents(filter) => Lift(SA.Query(a, SA.Students, load, filter), (d: seq<Doc>) => Records(d))
  }

  function Lift<T>(s: SA.Step<T>, wrap: T -> Reply): (SA.Adapter, Result<Reply, SA.AdapterError>) {
    match s.result
    case Success(v) => (s.adapter, Success(wrap(v)))
    case Failure(e) => (s.adapter, Failure(e))
  }

  /** No operation of the contract removes a student: once the students are
      cached, every operation keeps or grows that list and keeps every
      student already in it. */
  lemma StudentsNeverRemoved(a: SA.Adapter, op: Operation, load: SA.Load)
    requires a.studentsCache.Some?
    ensures Perform(a, op, load).0.studentsCache.Some?
    ensures |Perform(a, op, load).0.studentsCache.value| >= |a.studentsCache.value|
  {
    if Target(op) == SA.Students {
      var docs := a.studentsCache.value;
      assert SA.GetAll(a, SA.Students, load) == SA.Step(a, Success(docs));
      match op
      case CreateStudent(record, newId) =>
        assert SA.Create(a, SA.Students, load, record, newId).result.Success?;
      case UpdateStudent(id, patch) =>
      case _ =>
    }
  }

  // --- The memoizing factory ---

  /** An adapter instance: the snapshot adapter with its caches, or the
      remote document-store adapter (whose behaviour is not modelled). */
  datatype Instance = StaticInstance(state: SA.Adapter) | FirebaseInstance

  /** The module-level memo: null until the first successful selection. */
  datatype Registry = Registry(instance: Option<Instance>)

  /** getDataAdapter: the memoized instance if there is one; otherwise the
      adapter the data source names, memoized; otherwise an error for an
      unknown data source, leaving nothing memoized. */
  function GetDataAdapter(reg: Registry, dataSource: string): (r: (Registry, Result<Instance, string>))
    ensures reg.instance.Some? ==> r == (reg, Success(reg.instance.value))
    ensures reg.instance.None? && dataSource == "static" ==>
      r == (Registry(Some(StaticInstance(SA.NewAdapter))), Success(StaticInstance(SA.NewAdapter)))
    ensures reg.instance.None? && dataSource == "firebase" ==>
      r == (Registry(Some(FirebaseInstance)), Success(FirebaseInstance))
    ensures r.1.Failure? <==> reg.instance.None? && dataSource != "static" && dataSource != "firebase"
    ensures r.1.Failure? ==> r.0 == reg && r.1.error == "Unknown data source: " + dataSource
    ensures r.1.Success? ==> r.0.instance == Some(r.1.value)
  {
    if reg.instance.Some? then (reg, Success(reg.instance.value))
    else if dataSource == "static" then
      var inst := StaticInstance(SA.NewAdapter);
      (Registry(Some(inst)), Success(inst))
    else if dataSource == "firebase" then
      (Registry(Some(FirebaseInstance)), Success(FirebaseInstance))
    else (reg, Failure("Unknown data source: " + dataSource))
  }

  /** After one successful selection, every later call, whatever data source
      it is configured with, returns the same instance and changes nothing. */
  lemma SelectionIsMemoized(reg: Registry, first: string, later: string)
    requires GetDataAdapter(reg, first).1.Success?
    ensures GetDataAdapter(GetDataAdapter(reg, first).0, later)
         == (GetDataAdapter(reg, first).0, GetDataAdapter(reg, first).1)
  {
  }

  /** A failed selection can be retried: it leaves the registry as it was. */
  lemma UnknownSourceRetryable(reg: Registry, bad: string, good: string)
    requires reg.instance.None?
    requires bad != "static" && bad != "firebase"
    ensures GetDataAdapter(GetDataAdapter(reg, bad).0, good) == GetDataAdapter(reg, good)
  {
  }
}

=== FILE: documents.dfy ===
/** Untyped records as the snapshot adapter sees them: JSON objects loaded
    from a file, read by key, merged by object spread and matched against a
    filter map. */
module Documents {
  import opened Wrappers

  /** A JSON value. JavaScript numbers are modelled as integers. */
  datatype Json =
    | JNull
    | JBool(b: bool)
    | JNum(n: int)
    | JStr(s: string)
    | JArr(elems: seq<Json>)
    | JObj(fields: map<string, Json>)

  /** One stored record: a JSON object. */
  type Doc = map<string, Json>

  /** A query's filter object: key to required value or list of allowed
      values. */
  type QueryFilter = map<string, Json>

  /** Reading `record[key]`; a missing key reads as `undefined`. */
  function Lookup(d: Doc, key: string): (r: Option<Json>)
    ensures r.Some? <==> key in d
    ensures r.Some? ==> r.value == d[key]
  {
    if key in d then Some(d[key]) else None
  }

  /** Arrays and objects compare by reference under `===` and `includes`, and a
      filter is built apart from the stored records, so they never match. */
  predicate IsPrimitive(j: Json) {
    !j.JArr? && !j.JObj?
  }

  /** `field === v` for a field read from a record: `undefined` equals no JSON
      value; primitives compare by value. */
  predicate StrictEquals(field: Option<Json>, v: Json) {
    field.Some? && IsPrimitive(v) && field.value == v
  }

  /** One filter entry: an array value is a membership test, any other value
      an equality test. */
  predicate EntryMatches(field: Option<Json>, v: Json) {
    match v
    case JArr(allowed) => exists i | 0 <= i < |allowed| :: StrictEquals(field, allowed[i])
    case _ => StrictEquals(field, v)
  }

  /** A record satisfies a filter when it satisfies every entry. */
  predicate MatchesAll(d: Doc, filter: QueryFilter) {
    forall k | k in filter :: EntryMatches(Lookup(d, k), filter[k])
  }

  /** `{ ...base, ...patch }`: the patch's keys win, every other key of
      `base` survives, and no other key appears. */
  function Spread(base: Doc, patch: Doc): (r: Doc)
    ensures r.Keys == base.Keys + patch.Keys
    ensures forall k | k in patch :: r[k] == patch[k]
    ensures forall k | k in base && k !in patch :: r[k] == base[k]
  {
    base + patch
  }

  /** A filter entry whose key the record lacks matches nothing; so does an
      entry whose value is an object, and an entry with an empty list.
      The first case holds because the model has no `undefined` filter
      value: a key set to `undefined` counts as absent (README.md, "Left
      out"). */
  lemma UnmatchableEntries(d: Doc, filter: QueryFilter, k: string)
    requires k in filter
    requires k !in d || filter[k].JObj? || filter[k] == JArr([])
    ensures !MatchesAll(d, filter)
  {
    assert !EntryMatches(Lookup(d, k), filter[k]);
  }

  /** An empty filter matches every record. */
  lemma EmptyFilterMatches(d: Doc)
    ensures MatchesAll(d, map[])
  {
  }
}

=== FILE: event_model.dfy ===
/** The event entity of src/models/event.ts: closed enums with their JSON
    string spellings, and the record shapes every store and query uses.

    TypeScript optional keys are modelled explicitly: a key declared
    `k?: T | null` is a `Nullable<T>` (absent, null, or a value); a required
    `k: T | null` is an `Option<T>` whose `None` is null; an optional key
    without null, `k?: T`, is an `Option<T>` whose `None` is an absent key.
    JavaScript numbers are modelled as integers. */
module EventModel {
  import opened Wrappers

  /** The value of a list-typed key, where an absent or null list reads as
      empty (the `?.includes` idiom). */
  function ListOrEmpty<T>(l: Nullable<seq<T>>): (r: seq<T>)
    ensures l.Val? ==> r == l.value
    ensures !l.Val? ==> r == []
  {
    if l.Val? then l.value else []
  }

  // --- Enums ---

  /** The three event statuses. There is no rejected status. */
  datatype EventStatus = Pending | Approved | Closed

  function StatusName(s: EventStatus): string {
    match s
    case Pending => "Pending"
    case Approved => "Approved"
    case Closed => "Closed"
  }

  /** Reads a stored status string; only the three enum spellings are
      statuses. */
  function ParseStatus(text: string): (r: Option<EventStatus>)
    ensures r.Some? ==> StatusName(r.value) == text
    ensures r.None? <==> forall s: EventStatus :: StatusName(s) != text
  {
    if text == "Pending" then Some(Pending)
    else if text == "Approved" then Some(Approved)
    else if text == "Closed" then Some(Closed)
    else None
  }

  datatype EventFormat = Individual | Team | MultiEvent

  /** A phase is itself individual or team based, never multi-event. */
  type PhaseFormat = f: EventFormat | !f.MultiEvent? witness Individual

  function FormatName(f: EventFormat): string {
    match f
    case Individual => "Individual"
    case Team => "Team"
    case MultiEvent => "MultiEvent"
  }

  function ParseFormat(text: string): (r: Option<EventFormat>)
    ensures r.Some? ==> FormatName(r.value) == text
    ensures r.None? <==> forall f: EventFormat :: FormatName(f) != text
  {
    if text == "Individual" then Some(Individual)
    else if text == "Team" then Some(EventFormat.Team)
    else if text == "MultiEvent" then Some(MultiEvent)
    else None
  }

  /** Reads a phase's format string: the multi-event spelling is refused. */
  function ParsePhaseFormat(text: string): (r: Option<PhaseFormat>)
    ensures r.Some? <==> text == "Individual" || text == "Team"
    ensures r.Some? ==> FormatName(r.value) == text
  {
    match ParseFormat(text)
    case Some(f) => if f.MultiEvent? then None else Some(f)
    case None => None
  }

  /** The XP-awarding progress recorded on an event. */
  datatype XpAwardingStatus = XpPending | XpInProgress | XpCompleted | XpFailed

  function XpStatusName(s: XpAwardingStatus): string {
    match s
    case XpPending => "pending"
    case XpInProgress => "in_progress"
    case XpCompleted => "completed"
    case XpFailed => "failed"
  }

  function ParseXpStatus(text: string): (r: Option<XpAwardingStatus>)
    ensures r.Some? ==> XpStatusName(r.value) == text
    ensures r.None? <==> forall s: XpAwardingStatus :: XpStatusName(s) != text
  {
    if text == "pending" then Some(XpPending)
    else if text == "in_progress" then Some(XpInProgress)
    else if text == "completed" then Some(XpCompleted)
    else if text == "failed" then Some(XpFailed)
    else None
  }

  // --- Supporting records ---

  /** The scheduling window; either end may still be null. */
  datatype EventDate = EventDate(start: Option<string>, end: Option<string>)

  datatype EventCriteria = EventCriteria(
    description: Nullable<string>,
    constraintIndex: int,
    title: string,
    constraintKey: Option<string>,
    points: int,
    role: string,
    targetRole: Option<string>)

  datatype Submission = Submission(
    projectName: string,
    link: string,
    submittedBy: string,
    submittedAt: string,
    description: Nullable<string>,
    participantId: Nullable<string>,
    teamName: Option<string>,
    phaseId: Nullable<string>)

  /** A team; its id and lead may be undefined. */
  datatype Team = Team(
    id: Option<string>,
    teamName: string,
    members: seq<string>,
    teamLead: Option<string>)

  datatype OrganizerRating = OrganizerRating(
    userId: string,
    rating: int,
    feedback: Nullable<string>,
    ratedAt: Option<string>)

  datatype EventLifecycleTimestamps = EventLifecycleTimestamps(
    createdAt: Nullable<string>,
    approvedAt: Nullable<string>,
    startedAt: Nullable<string>,
    rejectedAt: Nullable<string>,
    completedAt: Nullable<string>,
    cancelledAt: Nullable<string>,
    closedAt: Nullable<string>)

  datatype EventGalleryItem = EventGalleryItem(
    url: string,
    caption: Nullable<string>,
    uploadedBy: Nullable<string>,
    uploadedAt: Nullable<string>)

  datatype EventPhase = EventPhase(
    id: string,
    phaseName: string,
    description: string,
    format: PhaseFormat,
    phaseType: string,
    participants: seq<string>,
    coreParticipants: seq<string>,
    criteria: seq<EventCriteria>,
    teams: seq<Team>,
    rules: Option<string>,
    prize: Option<string>,
    allowProjectSubmission: bool,
    winners: Nullable<map<string, seq<string>>>)

  datatype EventDetails = EventDetails(
    eventName: string,
    description: string,
    format: EventFormat,
    isCompetition: Option<bool>,
    organizers: seq<string>,
    coreParticipants: seq<string>,
    eventType: Option<string>,
    date: EventDate,
    rules: Nullable<string>,
    prize: Nullable<string>,
    allowProjectSubmission: bool,
    phases: Nullable<seq<EventPhase>>)

  // --- The event aggregate ---

  /** An event always carries its id, details, status, requester and voting
      flag; every other key may be absent or null. */
  datatype Event = Event(
    id: string,
    details: EventDetails,
    status: EventStatus,
    requestedBy: string,
    votingOpen: bool,
    lastUpdatedAt: Nullable<string>,
    participants: Nullable<seq<string>>,
    submissions: Nullable<seq<Submission>>,
    criteria: Nullable<seq<EventCriteria>>,
    teams: Nullable<seq<Team>>,
    organizerRatings: Nullable<map<string, OrganizerRating>>,
    winners: Nullable<map<string, seq<string>>>,
    criteriaVotes: Nullable<map<string, map<string, string>>>,
    bestPerformerSelections: Nullable<map<string, string>>,
    rejectionReason: Nullable<string>,
    manuallySelectedBy: Nullable<string>,
    gallery: Nullable<seq<EventGalleryItem>>,
    lifecycleTimestamps: Nullable<EventLifecycleTimestamps>,
    teamMemberFlatList: Nullable<seq<string>>,
    xpAwardingStatus: Nullable<XpAwardingStatus>,
    xpAwardedAt: Nullable<string>,
    xpAwardError: Nullable<string>)

  /** True when the record sets every optional key, to null or a value. */
  predicate HasAllKeys(e: Event) {
    && !e.lastUpdatedAt.Absent? && !e.participants.Absent? && !e.submissions.Absent?
    && !e.criteria.Absent? && !e.teams.Absent? && !e.organizerRatings.Absent?
    && !e.winners.Absent? && !e.criteriaVotes.Absent? && !e.bestPerformerSelections.Absent?
    && !e.rejectionReason.Absent? && !e.manuallySelectedBy.Absent? && !e.gallery.Absent?
    && !e.lifecycleTimestamps.Absent? && !e.teamMemberFlatList.Absent?
    && !e.xpAwardingStatus.Absent? && !e.xpAwardedAt.Absent? && !e.xpAwardError.Absent?
  }

  /** One key of an object spread: a later object's key wins when present. */
  function SpreadKey<T>(earlier: Nullable<T>, later: Nullable<T>): (r: Nullable<T>)
    ensures !later.Absent? ==> r == later
    ensures later.Absent? ==> r == earlier
  {
    if later.Absent? then earlier else later
  }

  /** `{ ...base, ...top }` for two events: every key `top` carries, including
      all its required keys, overrides the one in `base`; keys absent from
      `top` keep the value from `base`. */
  function Overlay(base: Event, top: Event): (r: Event)
    ensures r.id == top.id && r.details == top.details && r.status == top.status
    ensures r.requestedBy == top.requestedBy && r.votingOpen == top.votingOpen
    ensures HasAllKeys(top) ==> r == top
    ensures HasAllKeys(base) ==> HasAllKeys(r)
    ensures r.lastUpdatedAt == (if top.lastUpdatedAt.Absent? then base.lastUpdatedAt else top.lastUpdatedAt)
    ensures r.participants == (if top.participants.Absent? then base.participants else top.participants)
    ensures r.submissions == (if top.submissions.Absent? then base.submissions else top.submissions)
    ensures r.criteria == (if top.criteria.Absent? then base.criteria else top.criteria)
    ensures r.teams == (if top.teams.Absent? then base.teams else top.teams)
    ensures r.organizerRatings == (if top.organizerRatings.Absent? then base.organizerRatings else top.organizerRatings)
    ensures r.winners == (if top.winners.Absent? then base.winners else top.winners)
    ensures r.criteriaVotes == (if top.criteriaVotes.Absent? then base.criteriaVotes else top.criteriaVotes)
    ensures r.bestPerformerSelections == (if top.bestPerformerSelections.Absent? then base.bestPerformerSelections else top.bestPerformerSelections)
    ensures r.rejectionReason == (if top.rejectionReason.Absent? then base.rejectionReason else top.rejectionReason)
    ensures r.manuallySelectedBy == (if top.manuallySelectedBy.Absent? then base.manuallySelectedBy else top.manuallySelectedBy)
    ensures r.gallery == (if top.gallery.Absent? then base.gallery else top.gallery)
    ensures r.lifecycleTimestamps == (if top.lifecycleTimestamps.Absent? then base.lifecycleTimestamps else top.lifecycleTimestamps)
    ensures r.teamMemberFlatList == (if top.teamMemberFlatList.Absent? then base.teamMemberFlatList else top.teamMemberFlatList)
    ensures r.xpAwardingStatus == (if top.xpAwardingStatus.Absent? then base.xpAwardingStatus else top.xpAwardingStatus)
    ensures r.xpAwardedAt == (if top.xpAwardedAt.Absent? then base.xpAwardedAt else top.xpAwardedAt)
    ensures r.xpAwardError == (if top.xpAwardError.Absent? then base.xpAwardError else top.xpAwardError)
  {
    top.(
      lastUpdatedAt := SpreadKey(base.lastUpdatedAt, top.lastUpdatedAt),
      participants := SpreadKey(base.participants, top.participants),
      submissions := SpreadKey(base.submissions, top.submissions),
      criteria := SpreadKey(base.criteria, top.criteria),
      teams := SpreadKey(base.teams, top.teams),
      organizerRatings := SpreadKey(base.organizerRatings, top.organizerRatings),
      winners := SpreadKey(base.winners, top.winners),
      criteriaVotes := SpreadKey(base.criteriaVotes, top.criteriaVotes),
      bestPerformerSelections := SpreadKey(base.bestPerformerSelections, top.bestPerformerSelections),
      rejectionReason := SpreadKey(base.rejectionReason, top.rejectionReason),
      manuallySelectedBy := SpreadKey(base.manuallySelectedBy, top.manuallySelectedBy),
      gallery := SpreadKey(base.gallery, top.gallery),
      lifecycleTimestamps := SpreadKey(base.lifecycleTimestamps, top.lifecycleTimestamps),
      teamMemberFlatList := SpreadKey(base.teamMemberFlatList, top.teamMemberFlatList),
      xpAwardingStatus := SpreadKey(base.xpAwardingStatus, top.xpAwardingStatus),
      xpAwardedAt := SpreadKey(base.xpAwardedAt, top.xpAwardedAt),
      xpAwardError := SpreadKey(base.xpAwardError, top.xpAwardError))
  }

  /** Spreading the same event twice changes nothing more than spreading it
      once, and spreading an event over itself is the identity. */
  lemma OverlayIdempotent(base: Event, top: Event)
    ensures Overlay(Overlay(base, top), top) == Overlay(base, top)
    ensures Overlay(top, top) == top
  {
  }

  // --- Enum round trips ---

  /** Each enum's stored spelling reads back as that enum value. */
  lemma EnumNamesRoundTrip(s: EventStatus, f: EventFormat, x: XpAwardingStatus)
    ensures ParseStatus(StatusName(s)) == Some(s)
    ensures ParseFormat(FormatName(f)) == Some(f)
    ensures ParseXpStatus(XpStatusName(x)) == Some(x)
  {
  }

  /** "Rejected" is not a status and "MultiEvent" is not a phase format. */
  lemma NoRejectedStatus()
    ensures ParseStatus("Rejected") == None
    ensures ParsePhaseFormat("MultiEvent") == None
    ensures ParseFormat("MultiEvent") == Some(MultiEvent)
  {
  }
}

=== FILE: event_queries.dfy ===
/** Read-only event queries of src/services/eventService/eventQueries.ts.
    Every query filters the bundled event list, passed in as `events`. An
    empty student or event id is JavaScript-falsy and handled as "none". */
module EventQueries {
  import opened Wrappers
  import opened Seqs
  import opened EventModel

  /** Approved and Closed events are visible to everyone. */
  predicate IsPublic(e: Event) {
    e.status == Approved || e.status == Closed
  }

  /** A Pending event requested by the given student. */
  predicate IsPendingRequestOf(e: Event, studentId: string) {
    e.requestedBy == studentId && e.status == Pending
  }

  /** The student is a participant, an organizer or a team member; a missing
      list counts as empty. */
  predicate Involves(e: Event, studentId: string) {
    || studentId in ListOrEmpty(e.participants)
    || studentId in e.details.organizers
    || studentId in ListOrEmpty(e.teamMemberFlatList)
  }

  /** The filter predicate of fetchMyEventRequests. */
  function PendingOf(studentId: string): Event -> bool {
    (e: Event) => IsPendingRequestOf(e, studentId)
  }

  /** fetchMyEventRequests: the student's Pending requests, in list order. */
  function FetchMyEventRequests(events: seq<Event>, studentId: string): (r: seq<Event>)
    ensures studentId == "" ==> r == []
    ensures forall j | 0 <= j < |r| :: r[j].requestedBy == studentId && r[j].status == Pending
    ensures studentId != "" ==>
      forall e :: multiset(r)[e] == if e.requestedBy == studentId && e.status == Pending then multiset(events)[e] else 0
    ensures IsSubsequence(r, events)
  {
    if studentId == "" then []
    else
      var mine := PendingOf(studentId);
      assert forall e :: multiset(Filter(events, mine))[e] == if mine(e) then multiset(events)[e] else 0 by {
        forall e ensures multiset(Filter(events, mine))[e] == if mine(e) then multiset(events)[e] else 0 {
          FilterCount(events, mine, e);
        }
      }
      Filter(events, mine)
  }

  /** The access rule for one event: public, or the signed-in student's own
      Pending request. */
  predicate VisibleTo(e: Event, currentStudentId: Option<string>) {
    || IsPublic(e)
    || (currentStudentId.Some? && currentStudentId.value != "" && IsPendingRequestOf(e, currentStudentId.value))
  }

  /** `k` is the position of the first event with the id. */
  predicate FirstWithId(events: seq<Event>, eventId: string, k: int) {
    0 <= k < |events| && events[k].id == eventId && forall i | 0 <= i < k :: events[i].id != eventId
  }

  /** There is only one first position. */
  lemma FirstWithIdUnique(events: seq<Event>, eventId: string, k1: int, k2: int)
    requires FirstWithId(events, eventId, k1) && FirstWithId(events, eventId, k2)
    ensures k1 == k2
  {
  }

  /** fetchSingleEventForStudent: throws on an empty id; otherwise the first
      event with the id when the access rule lets the student see it, and
      null when there is no such event or it is hidden. */
  function FetchSingleEventForStudent(events: seq<Event>, eventId: string, currentStudentId: Option<string>): (r: Result<Option<Event>, string>)
    ensures r.Failure? <==> eventId == ""
    ensures r.Failure? ==> r.error == "Event ID required for fetching details."
    ensures r.Success? ==>
      (r.value.Some? <==> exists k :: FirstWithId(events, eventId, k) && VisibleTo(events[k], currentStudentId))
    ensures r.Success? && r.value.Some? ==>
      exists k :: FirstWithId(events, eventId, k) && r.value.value == events[k]
    ensures r.Success? && r.value.Some? && r.value.value.status == Pending ==>
      currentStudentId == Some(r.value.value.requestedBy)
  {
    if eventId == "" then Failure("Event ID required for fetching details.")
    else
      match FindIndex(events, (e: Event) => e.id == eventId)
      case None => Success(None)
      case Some(k) =>
        assert FirstWithId(events, eventId, k);
        var e := events[k];
        if VisibleTo(e, currentStudentId) then Success(Some(e)) else Success(None)
  }

  /** fetchPubliclyViewableEvents: exactly the Approved and Closed events, in
      list order. */
  function FetchPubliclyViewableEvents(events: seq<Event>): (r: seq<Event>)
    ensures forall j | 0 <= j < |r| :: r[j].status != Pending
    ensures forall e :: multiset(r)[e] == if e.status != Pending then multiset(events)[e] else 0
    ensures IsSubsequence(r, events)
  {
    var pub := IsPublic;
    assert forall e :: multiset(Filter(events, pub))[e] == if pub(e) then multiset(events)[e] else 0 by {
      forall e ensures multiset(Filter(events, pub))[e] == if pub(e) then multiset(events)[e] else 0 {
        FilterCount(events, pub, e);
      }
    }
    Filter(events, pub)
  }

  /** hasPendingRequest: some event is a Pending request by the student. */
  function HasPendingRequest(events: seq<Event>, studentId: string): (r: bool)
    ensures r ==> studentId != ""
    ensures studentId != "" ==> (r <==> exists e :: e in events && e.requestedBy == studentId && e.status == Pending)
  {
    studentId != "" && exists j | 0 <= j < |events| :: IsPendingRequestOf(events[j], studentId)
  }

  /** The two request queries agree: a pending request exists exactly when
      the request list is non-empty. */
  lemma HasPendingIffRequests(events: seq<Event>, studentId: string)
    ensures HasPendingRequest(events, studentId) <==> |FetchMyEventRequests(events, studentId)| > 0
  {
    var r := FetchMyEventRequests(events, studentId);
    if HasPendingRequest(events, studentId) {
      var j :| 0 <= j < |events| && IsPendingRequestOf(events[j], studentId);
      assert multiset(events)[events[j]] > 0;
      assert multiset(r)[events[j]] > 0;
    }
  }

  /** fetchStudentEvents: the events the student participates in, organizes
      or is a team member of, in list order; none for an empty id. */
  function FetchStudentEvents(events: seq<Event>, studentId: string): (r: seq<Event>)
    ensures studentId == "" ==> r == []
    ensures forall j | 0 <= j < |r| :: Involves(r[j], studentId)
    ensures studentId != "" ==>
      forall e :: multiset(r)[e] == if Involves(e, studentId) then multiset(events)[e] else 0
    ensures IsSubsequence(r, events)
  {
    if studentId == "" then []
    else
      var involved := (e: Event) => Involves(e, studentId);
      assert forall e :: multiset(Filter(events, involved))[e] == if involved(e) then multiset(events)[e] else 0 by {
        forall e ensures multiset(Filter(events, involved))[e] == if involved(e) then multiset(events)[e] else 0 {
          FilterCount(events, involved, e);
        }
      }
      Filter(events, involved)
  }

  /** fetchStudentEventsWithFallback: the same answer as fetchStudentEvents. */
  function FetchStudentEventsWithFallback(events: seq<Event>, studentId: string): (r: seq<Event>)
    ensures r == FetchStudentEvents(events, studentId)
  {
    FetchStudentEvents(events, studentId)
  }

  /** The list queries keep list order: querying a concatenation is the
      concatenation of the answers. */
  lemma QueriesPreserveOrder(a: seq<Event>, b: seq<Event>, studentId: string)
    ensures FetchMyEventRequests(a + b, studentId) == FetchMyEventRequests(a, studentId) + FetchMyEventRequests(b, studentId)
    ensures FetchPubliclyViewableEvents(a + b) == FetchPubliclyViewableEvents(a) + FetchPubliclyViewableEvents(b)
    ensures FetchStudentEvents(a + b, studentId) == FetchStudentEvents(a, studentId) + FetchStudentEvents(b, studentId)
  {
    assert FetchMyEventRequests(a + b, studentId) == FetchMyEventRequests(a, studentId) + FetchMyEventRequests(b, studentId) by {
      FilterAppend(a, b, PendingOf(studentId));
    }
    assert FetchPubliclyViewableEvents(a + b) == FetchPubliclyViewableEvents(a) + FetchPubliclyViewableEvents(b) by {
      FilterAppend(a, b, IsPublic);
    }
    assert FetchStudentEvents(a + b, studentId) == FetchStudentEvents(a, studentId) + FetchStudentEvents(b, studentId) by {
      FilterAppend(a, b, (e: Event) => Involves(e, studentId));
    }
  }

  /** Nobody sees another student's Pending event through the single-event
      query, and a signed-out visitor sees no Pending event at all. */
  lemma PendingEventsStayPrivate(events: seq<Event>, eventId: string, viewer: Option<string>)
    requires viewer.None? || viewer == Some("")
    ensures var r := FetchSingleEventForStudent(events, eventId, viewer);
      r.Success? && r.value.Some? ==> IsPublic(r.value.value)
  {
  }
}

=== FILE: event_store.dfy ===
/** The client-side event store of src/stores/eventStore.ts. It holds two
    lists, `events` and `myEventRequests`, plus the event being viewed and the
    last errors. Requests, edits and deletions change only these lists.

    The signed-in student comes from the profile store: `currentUid` is the
    current student's uid, `None` when nobody is signed in. The clock
    (`now`, `createdAt`) is a parameter, and the bundled event list the
    queries read is the parameter `bundle`. */
module EventStore {
  import opened Wrappers
  import opened Seqs
  import opened EventModel
  import Q = EventQueries
  import ProfileStore

  datatype StoreState = StoreState(
    events: seq<Event>,
    viewedEventDetails: Option<Event>,
    myEventRequests: seq<Event>,
    actionError: Option<string>,
    fetchError: Option<string>)

  /** The request form; it carries the event's details. */
  datatype EventFormData = EventFormData(details: EventDetails)

  const NotAuthenticated: string := "User not authenticated."

  /** Some entry of the list has the id. */
  predicate HasId(list: seq<Event>, id: string) {
    exists j | 0 <= j < |list| :: list[j].id == id
  }

  /** Merges `e` into the first entry with its id, or appends `e` when there
      is none. */
  function UpdateList(list: seq<Event>, e: Event): (r: seq<Event>)
    ensures HasId(list, e.id) ==>
      exists k :: Q.FirstWithId(list, e.id, k) && r == list[k := Overlay(list[k], e)]
    ensures !HasId(list, e.id) ==> r == list + [e]
    ensures HasId(r, e.id)
  {
    match FindIndex(list, (x: Event) => x.id == e.id)
    case Some(k) =>
      assert Q.FirstWithId(list, e.id, k);
      assert list[k := Overlay(list[k], e)][k].id == e.id;
      list[k := Overlay(list[k], e)]
    case None =>
      assert (list + [e])[|list|] == e;
      list + [e]
  }

  /** Merging an event leaves the entries with other ids, in order, as they
      were. */
  lemma UpdateListSameOthers(list: seq<Event>, e: Event)
    ensures WithoutId(UpdateList(list, e), e.id) == WithoutId(list, e.id)
  {
    var r := UpdateList(list, e);
    if HasId(list, e.id) {
      var k :| Q.FirstWithId(list, e.id, k) && r == list[k := Overlay(list[k], e)];
      WithoutIdOverwrite(list, k, Overlay(list[k], e), e.id);
    } else {
      WithoutIdAppend(list, e);
    }
  }

  /** Merging an event leaves the entries with other ids as they were. */
  lemma UpdateListKeepsOthers(list: seq<Event>, e: Event, x: Event)
    requires x.id != e.id
    ensures multiset(UpdateList(list, e))[x] == multiset(list)[x]
  {
    var r := UpdateList(list, e);
    if HasId(list, e.id) {
      var k :| Q.FirstWithId(list, e.id, k) && r == list[k := Overlay(list[k], e)];
      UpdateKeepsOtherCounts(list, k, Overlay(list[k], e), x);
    }
  }

  /** Entries that do not carry the id. */
  function OtherId(id: string): Event -> bool {
    (x: Event) => x.id != id
  }

  /** The list without any entry carrying the id. */
  function WithoutId(list: seq<Event>, id: string): (r: seq<Event>)
    ensures !HasId(r, id)
    ensures forall x :: multiset(r)[x] == if x.id == id then 0 else multiset(list)[x]
    ensures IsSubsequence(r, list)
  {
    var keep := OtherId(id);
    assert forall x :: multiset(Filter(list, keep))[x] == if keep(x) then multiset(list)[x] else 0 by {
      forall x ensures multiset(Filter(list, keep))[x] == if keep(x) then multiset(list)[x] else 0 {
        FilterCount(list, keep, x);
      }
    }
    Filter(list, keep)
  }

  /** Replacing an entry that carries the id by another that carries it
      leaves the other entries, in order, as they were. */
  lemma WithoutIdOverwrite(list: seq<Event>, k: int, v: Event, id: string)
    requires 0 <= k < |list| && list[k].id == id && v.id == id
    ensures WithoutId(list[k := v], id) == WithoutId(list, id)
  {
    var keep := OtherId(id);
    var before, after := list[..k], list[k + 1..];
    assert list == (before + [list[k]]) + after;
    assert list[k := v] == (before + [v]) + after;
    FilterAppend(before + [list[k]], after, keep);
    FilterAppend(before, [list[k]], keep);
    FilterAppend(before + [v], after, keep);
    FilterAppend(before, [v], keep);
    assert [v][1..] == [] && [list[k]][1..] == [];
  }

  /** Appending an entry that carries the id leaves the other entries as
      they were. */
  lemma WithoutIdAppend(list: seq<Event>, e: Event)
    ensures WithoutId(list + [e], e.id) == WithoutId(list, e.id)
  {
    FilterAppend(list, [e], OtherId(e.id));
    assert [e][1..] == [];
  }

  /** True when `e` belongs among the student's own requests. */
  predicate IsOwnPendingRequest(e: Event, currentUid: Option<string>) {
    var sid := ProfileStore.StudentIdOf(currentUid);
    sid.Some? && e.requestedBy == sid.value && e.status == Pending
  }

  /** _updateLocalEvent: `events` keeps `e` exactly when it is Approved or
      Closed, `myEventRequests` exactly when it is the signed-in student's
      Pending request; entries with other ids are untouched; the viewed event
      absorbs `e` only when it has the same id. */
  function UpdateLocalEvent(s: StoreState, e: Event, currentUid: Option<string>): (r: StoreState)
    ensures HasId(r.events, e.id) <==> e.status == Approved || e.status == Closed
    ensures HasId(r.myEventRequests, e.id) <==>
      currentUid.Some? && currentUid.value != "" && e.requestedBy == currentUid.value && e.status == Pending
    ensures forall x: Event | x.id != e.id :: multiset(r.events)[x] == multiset(s.events)[x]
    ensures forall x: Event | x.id != e.id :: multiset(r.myEventRequests)[x] == multiset(s.myEventRequests)[x]
    ensures s.viewedEventDetails.Some? && s.viewedEventDetails.value.id == e.id ==>
      r.viewedEventDetails == Some(Overlay(s.viewedEventDetails.value, e))
    ensures !(s.viewedEventDetails.Some? && s.viewedEventDetails.value.id == e.id) ==>
      r.viewedEventDetails == s.viewedEventDetails
    ensures r.actionError == s.actionError && r.fetchError == s.fetchError
    ensures Q.IsPublic(e) ==> r.events == UpdateList(s.events, e)
    ensures !Q.IsPublic(e) ==> r.events == WithoutId(s.events, e.id)
    ensures IsOwnPendingRequest(e, currentUid) ==> r.myEventRequests == UpdateList(s.myEventRequests, e)
    ensures !IsOwnPendingRequest(e, currentUid) ==> r.myEventRequests == WithoutId(s.myEventRequests, e.id)
  {
    var events := if Q.IsPublic(e) then UpdateList(s.events, e) else WithoutId(s.events, e.id);
    var mine := if IsOwnPendingRequest(e, currentUid) then UpdateList(s.myEventRequests, e)
                else WithoutId(s.myEventRequests, e.id);
    var viewed := if s.viewedEventDetails.Some? && s.viewedEventDetails.value.id == e.id
                  then Some(Overlay(s.viewedEventDetails.value, e)) else s.viewedEventDetails;
    assert forall x: Event | x.id != e.id ::
      && multiset(UpdateList(s.events, e))[x] == multiset(s.events)[x]
      && multiset(UpdateList(s.myEventRequests, e))[x] == multiset(s.myEventRequests)[x]
    by {
      forall x: Event | x.id != e.id
        ensures multiset(UpdateList(s.events, e))[x] == multiset(s.events)[x]
        ensures multiset(UpdateList(s.myEventRequests, e))[x] == multiset(s.myEventRequests)[x]
      {
        UpdateListKeepsOthers(s.events, e, x);
        UpdateListKeepsOthers(s.myEventRequests, e, x);
      }
    }
    s.(events := events, myEventRequests := mine, viewedEventDetails := viewed)
  }

  /** _updateLocalEvent keeps the entries with other ids of both lists, in
      order. */
  lemma LocalUpdateSameOthers(s: StoreState, e: Event, currentUid: Option<string>)
    ensures var r := UpdateLocalEvent(s, e, currentUid);
      && WithoutId(r.events, e.id) == WithoutId(s.events, e.id)
      && WithoutId(r.myEventRequests, e.id) == WithoutId(s.myEventRequests, e.id)
  {
    UpdateListSameOthers(s.events, e);
    UpdateListSameOthers(s.myEventRequests, e);
    WithoutIdTwice(s.events, e.id);
    WithoutIdTwice(s.myEventRequests, e.id);
  }

  /** Applying the same event twice leaves the lists as applying it once. */
  lemma {:induction false} UpdateLocalEventIdempotent(s: StoreState, e: Event, currentUid: Option<string>)
    ensures UpdateLocalEvent(UpdateLocalEvent(s, e, currentUid), e, currentUid) == UpdateLocalEvent(s, e, currentUid)
  {
    var once := UpdateLocalEvent(s, e, currentUid);
    UpdateListTwice(s.events, e);
    UpdateListTwice(s.myEventRequests, e);
    WithoutIdTwice(s.events, e.id);
    WithoutIdTwice(s.myEventRequests, e.id);
    if s.viewedEventDetails.Some? && s.viewedEventDetails.value.id == e.id {
      OverlayIdempotent(s.viewedEventDetails.value, e);
    }
  }

  lemma UpdateListTwice(list: seq<Event>, e: Event)
    ensures UpdateList(UpdateList(list, e), e) == UpdateList(list, e)
  {
    var once := UpdateList(list, e);
    if HasId(list, e.id) {
      var k :| Q.FirstWithId(list, e.id, k) && once == list[k := Overlay(list[k], e)];
      assert Q.FirstWithId(once, e.id, k);
      var k2 :| Q.FirstWithId(once, e.id, k2) && UpdateList(once, e) == once[k2 := Overlay(once[k2], e)];
      Q.FirstWithIdUnique(once, e.id, k, k2);
      OverlayIdempotent(list[k], e);
    } else {
      var n := |list|;
      assert once == list + [e];
      assert forall i | 0 <= i < n :: once[i] == list[i];
      assert Q.FirstWithId(once, e.id, n);
      var k2 :| Q.FirstWithId(once, e.id, k2) && UpdateList(once, e) == once[k2 := Overlay(once[k2], e)];
      Q.FirstWithIdUnique(once, e.id, n, k2);
      OverlayIdempotent(e, e);
    }
  }

  lemma WithoutIdTwice(list: seq<Event>, id: string)
    ensures WithoutId(WithoutId(list, id), id) == WithoutId(list, id)
  {
    var once := WithoutId(list, id);
    FilterKeepsAll(once, OtherId(id));
  }

  /** The request built by requestNewEvent. Keys the form does not supply
      are absent; the voting flag, which the form leaves undefined, is
      false. */
  function NewRequest(id: string, form: EventFormData, studentId: string, createdAt: string): (r: Event)
    ensures r.id == id && r.details == form.details
    ensures r.status == Pending && r.requestedBy == studentId && !r.votingOpen
    ensures r.lifecycleTimestamps.Val? && r.lifecycleTimestamps.value.createdAt == Val(createdAt)
  {
    Event(id, form.details, Pending, studentId, false,
          Absent, Absent, Absent, Absent, Absent, Absent, Absent, Absent, Absent, Absent, Absent, Absent,
          Val(EventLifecycleTimestamps(Val(createdAt), Absent, Absent, Absent, Absent, Absent, Absent)),
          Absent, Absent, Absent, Absent)
  }

  /** The decimal digits of `n`, most significant first. */
  function DecimalString(n: nat): (r: string)
    ensures |r| > 0
    ensures forall i | 0 <= i < |r| :: '0' <= r[i] <= '9'
    ensures DecimalValue(r) == n
  {
    var last := ('0' as int + n % 10) as char;
    if n < 10 then [last]
    else
      var prefix := DecimalString(n / 10);
      assert (prefix + [last])[..|prefix|] == prefix;
      prefix + [last]
  }

  /** The number a digit string spells. */
  function DecimalValue(s: string): nat
    requires forall i | 0 <= i < |s| :: '0' <= s[i] <= '9'
  {
    if |s| == 0 then 0
    else DecimalValue(s[..|s| - 1]) * 10 + (s[|s| - 1] as int - '0' as int)
  }

  /** The id of a request made at millisecond `now`: "evt_" and the
      decimal clock value. */
  function RequestId(now: nat): string {
    "evt_" + DecimalString(now)
  }

  /** Requests made at different milliseconds get different ids. */
  lemma RequestIdsDistinct(now1: nat, now2: nat)
    requires now1 != now2
    ensures RequestId(now1) != RequestId(now2)
  {
    assert RequestId(now1)[4..] == DecimalString(now1);
    assert RequestId(now2)[4..] == DecimalString(now2);
  }

  /** requestNewEvent: without a signed-in student, records the error and
      returns null; otherwise appends one Pending request by that student to
      both lists and returns its id. */
  function RequestNewEvent(s: StoreState, form: EventFormData, currentUid: Option<string>, now: nat, createdAt: string)
    : (r: (StoreState, Option<string>))
    ensures r.1.None? <==> ProfileStore.StudentIdOf(currentUid).None?
    ensures r.1.None? ==> r.0 == s.(actionError := Some(NotAuthenticated))
    ensures r.1.Some? ==>
      && r.1.value == RequestId(now)
      && |r.0.events| == |s.events| + 1 && r.0.events[..|s.events|] == s.events
      && |r.0.myEventRequests| == |s.myEventRequests| + 1
      && r.0.myEventRequests[..|s.myEventRequests|] == s.myEventRequests
      && var added := r.0.events[|s.events|];
      && added == r.0.myEventRequests[|s.myEventRequests|]
      && added.id == r.1.value && added.details == form.details
      && added.status == Pending && Some(added.requestedBy) == currentUid
      && added == NewRequest(RequestId(now), form, currentUid.value, createdAt)
      && r.0.viewedEventDetails == s.viewedEventDetails
      && r.0.actionError == s.actionError && r.0.fetchError == s.fetchError
  {
    match ProfileStore.StudentIdOf(currentUid)
    case None => (s.(actionError := Some(NotAuthenticated)), None)
    case Some(studentId) =>
      var id := RequestId(now);
      var added := NewRequest(id, form, studentId, createdAt);
      assert (s.events + [added])[..|s.events|] == s.events;
      assert (s.myEventRequests + [added])[..|s.myEventRequests|] == s.myEventRequests;
      (s.(events := s.events + [added], myEventRequests := s.myEventRequests + [added]), Some(id))
  }

  /** Replaces the details of the first entry with the id, if any. */
  function ApplyForm(list: seq<Event>, id: string, form: EventFormData): (r: seq<Event>)
    ensures |r| == |list|
    ensures !HasId(list, id) ==> r == list
    ensures HasId(list, id) ==>
      exists k :: Q.FirstWithId(list, id, k) && r == list[k := list[k].(details := form.details)]
  {
    match FindIndex(list, (x: Event) => x.id == id)
    case Some(k) =>
      assert Q.FirstWithId(list, id, k);
      list[k := list[k].(details := form.details)]
    case None => list
  }

  /** editMyEventRequest: any signed-in student may edit; the first entry
      with the id in each list gets the form's details. Without a student it
      records the error and returns false. Ownership and status are not
      checked. */
  function EditMyEventRequest(s: StoreState, eventId: string, form: EventFormData, currentUid: Option<string>)
    : (r: (StoreState, bool))
    ensures r.1 <==> ProfileStore.StudentIdOf(currentUid).Some?
    ensures !r.1 ==> r.0 == s.(actionError := Some(NotAuthenticated))
    ensures r.1 ==>
      && r.0.events == ApplyForm(s.events, eventId, form)
      && r.0.myEventRequests == ApplyForm(s.myEventRequests, eventId, form)
      && r.0.viewedEventDetails == s.viewedEventDetails
      && r.0.actionError == s.actionError && r.0.fetchError == s.fetchError
  {
    if ProfileStore.StudentIdOf(currentUid).None? then (s.(actionError := Some(NotAuthenticated)), false)
    else
      (s.(events := ApplyForm(s.events, eventId, form),
          myEventRequests := ApplyForm(s.myEventRequests, eventId, form)), true)
  }

  /** deleteEventRequest: drops every entry with the id from both lists and
      clears the viewed event if it has that id. */
  function DeleteEventRequest(s: StoreState, eventId: string, currentUid: Option<string>): (r: (StoreState, bool))
    ensures r.1 <==> ProfileStore.StudentIdOf(currentUid).Some?
    ensures !r.1 ==> r.0 == s.(actionError := Some(NotAuthenticated))
    ensures r.1 ==>
      && !HasId(r.0.events, eventId) && !HasId(r.0.myEventRequests, eventId)
      && (forall x: Event | x.id != eventId :: multiset(r.0.events)[x] == multiset(s.events)[x])
      && (forall x: Event | x.id != eventId :: multiset(r.0.myEventRequests)[x] == multiset(s.myEventRequests)[x])
      && IsSubsequence(r.0.events, s.events) && IsSubsequence(r.0.myEventRequests, s.myEventRequests)
      && (r.0.viewedEventDetails.None? <==> s.viewedEventDetails.None? || s.viewedEventDetails.value.id == eventId)
      && (r.0.viewedEventDetails.Some? ==> r.0.viewedEventDetails == s.viewedEventDetails)
      && r.0.actionError == s.actionError && r.0.fetchError == s.fetchError
  {
    if ProfileStore.StudentIdOf(currentUid).None? then (s.(actionError := Some(NotAuthenticated)), false)
    else
      var viewed := if s.viewedEventDetails.Some? && s.viewedEventDetails.value.id == eventId
                    then None else s.viewedEventDetails;
      (s.(events := WithoutId(s.events, eventId),
          myEventRequests := WithoutId(s.myEventRequests, eventId),
          viewedEventDetails := viewed), true)
  }

  /** Deleting the same request twice is deleting it once, signed in or
      not. */
  lemma DeleteEventRequestTwice(s: StoreState, eventId: string, currentUid: Option<string>)
    ensures var once := DeleteEventRequest(s, eventId, currentUid);
      DeleteEventRequest(once.0, eventId, currentUid) == once
  {
    WithoutIdTwice(s.events, eventId);
    WithoutIdTwice(s.myEventRequests, eventId);
  }

  /** fetchEventDetails: reads the event through the single-event query;
      a visible event is merged into the lists and becomes the viewed one;
      a failed query records the error. */
  function FetchEventDetails(s: StoreState, bundle: seq<Event>, eventId: string, currentUid: Option<string>)
    : (r: (StoreState, Option<Event>))
    ensures eventId == "" ==> r == (s.(fetchError := Some("Failed to fetch event " + eventId + ".")), None)
    ensures r.0.actionError == s.actionError
    ensures eventId != "" ==>
      (r.1.Some? <==> exists b :: Q.FirstWithId(bundle, eventId, b) && Q.VisibleTo(bundle[b], ProfileStore.StudentIdOf(currentUid)))
    ensures r.1.Some? ==> exists b :: Q.FirstWithId(bundle, eventId, b) && r.1.value == bundle[b]
    ensures r.1.Some? ==> r.0.viewedEventDetails == r.1 && r.1.value.id == eventId && r.0.fetchError.None?
    ensures r.1.Some? ==> Q.VisibleTo(r.1.value, ProfileStore.StudentIdOf(currentUid))
    ensures r.1.Some? ==>
      && r.0.events == UpdateLocalEvent(s, r.1.value, currentUid).events
      && r.0.myEventRequests == UpdateLocalEvent(s, r.1.value, currentUid).myEventRequests
    ensures eventId != "" && r.1.None? ==> r.0 == s.(fetchError := None)
  {
    var cleared := s.(fetchError := None);
    match Q.FetchSingleEventForStudent(bundle, eventId, ProfileStore.StudentIdOf(currentUid))
    case Failure(_) => (cleared.(fetchError := Some("Failed to fetch event " + eventId + ".")), None)
    case Success(None) => (cleared, None)
    case Success(Some(e)) =>
      (UpdateLocalEvent(cleared, e, currentUid).(viewedEventDetails := Some(e)), Some(e))
  }

  /** The in-place status write: the first event with the id takes the new
      status, whatever the old one was. */
  function SetStatus(events: seq<Event>, eventId: string, newStatus: EventStatus): (r: seq<Event>)
    ensures |r| == |events|
    ensures !HasId(events, eventId) ==> r == events
    ensures HasId(events, eventId) ==>
      exists k :: Q.FirstWithId(events, eventId, k) && r == events[k := events[k].(status := newStatus)]
    ensures forall x: Event | x.id != eventId :: multiset(r)[x] == multiset(events)[x]
  {
    match FindIndex(events, (x: Event) => x.id == eventId)
    case Some(k) =>
      assert Q.FirstWithId(events, eventId, k);
      var r := events[k := events[k].(status := newStatus)];
      assert forall x: Event | x.id != eventId :: multiset(r)[x] == multiset(events)[x] by {
        forall x: Event | x.id != eventId ensures multiset(r)[x] == multiset(events)[x] {
          UpdateKeepsOtherCounts(events, k, events[k].(status := newStatus), x);
        }
      }
      r
    case None => events
  }

  /** The status write leaves the entries with other ids, in order, as they
      were. */
  lemma SetStatusSameOthers(events: seq<Event>, eventId: string, newStatus: EventStatus)
    ensures WithoutId(SetStatus(events, eventId, newStatus), eventId) == WithoutId(events, eventId)
  {
    var r := SetStatus(events, eventId, newStatus);
    if HasId(events, eventId) {
      var k :| Q.FirstWithId(events, eventId, k) && r == events[k := events[k].(status := newStatus)];
      WithoutIdOverwrite(events, k, events[k].(status := newStatus), eventId);
    }
  }

  /** After a status write, the first entry with the id carries the new
      status. */
  lemma SetStatusFirst(events: seq<Event>, eventId: string, newStatus: EventStatus, k: int)
    requires Q.FirstWithId(SetStatus(events, eventId, newStatus), eventId, k)
    ensures SetStatus(events, eventId, newStatus)[k].status == newStatus
  {
    var r := SetStatus(events, eventId, newStatus);
    if HasId(events, eventId) {
      var k0 :| Q.FirstWithId(events, eventId, k0) && r == events[k0 := events[k0].(status := newStatus)];
      assert Q.FirstWithId(r, eventId, k0);
      Q.FirstWithIdUnique(r, eventId, k, k0);
    }
  }

  /** updateEventStatus. Without a current student it records the error;
      with no event of that id in `events` it does nothing. Otherwise it
      writes the status, unchecked, onto the first such entry and refreshes
      the event through fetchEventDetails.

      The write is in place. When `shared` holds, the entry written is the
      very object the bundled list holds first for that id, so the write
      lands in the bundle too; the returned bundle is the list the refresh
      and later queries read. The refreshed event, when the query returns
      one, decides what the lists and the viewed event hold for that id;
      otherwise the written entry stays. Entries with other ids and the
      action error never change. */
  function UpdateEventStatus(s: StoreState, bundle: seq<Event>, eventId: string, newStatus: EventStatus,
                             currentUid: Option<string>, shared: bool): (r: (StoreState, seq<Event>))
    ensures currentUid.None? ==> r == (s.(actionError := Some(NotAuthenticated)), bundle)
    ensures currentUid.Some? && !HasId(s.events, eventId) ==> r == (s, bundle)
    ensures currentUid.Some? && HasId(s.events, eventId) ==>
      && r.1 == (if shared then SetStatus(bundle, eventId, newStatus) else bundle)
      && r.0.actionError == s.actionError
      && (forall x: Event | x.id != eventId :: multiset(r.0.events)[x] == multiset(s.events)[x])
      && (forall x: Event | x.id != eventId :: multiset(r.0.myEventRequests)[x] == multiset(s.myEventRequests)[x])
      && WithoutId(r.0.events, eventId) == WithoutId(s.events, eventId)
      && WithoutId(r.0.myEventRequests, eventId) == WithoutId(s.myEventRequests, eventId)
      && var refreshed := Q.FetchSingleEventForStudent(r.1, eventId, ProfileStore.StudentIdOf(currentUid));
      && (refreshed.Success? && refreshed.value.Some? ==>
            && r.0.viewedEventDetails == refreshed.value && r.0.fetchError.None?
            && (HasId(r.0.events, eventId) <==> Q.IsPublic(refreshed.value.value))
            && (HasId(r.0.myEventRequests, eventId) <==> IsOwnPendingRequest(refreshed.value.value, currentUid))
            && (forall k | Q.FirstWithId(r.0.events, eventId, k) :: r.0.events[k].status == refreshed.value.value.status))
      && (!(refreshed.Success? && refreshed.value.Some?) ==>
            && r.0.myEventRequests == s.myEventRequests && r.0.viewedEventDetails == s.viewedEventDetails
            && (r.0.fetchError.Some? <==> refreshed.Failure?)
            && HasId(r.0.events, eventId)
            && (forall k | Q.FirstWithId(r.0.events, eventId, k) :: r.0.events[k].status == newStatus))
  {
    if currentUid.None? then (s.(actionError := Some(NotAuthenticated)), bundle)
    else if !HasId(s.events, eventId) then (s, bundle)
    else
      var bundle' := if shared then SetStatus(bundle, eventId, newStatus) else bundle;
      var written := s.(events := SetStatus(s.events, eventId, newStatus));
      var fetched := FetchEventDetails(written, bundle', eventId, currentUid);
      RefreshFacts(s, written, bundle', eventId, newStatus, currentUid);
      (fetched.0, bundle')
  }

  /** The facts UpdateEventStatus states about its refresh step. */
  lemma RefreshFacts(s: StoreState, written: StoreState, bundle: seq<Event>, eventId: string, newStatus: EventStatus,
                     currentUid: Option<string>)
    requires HasId(s.events, eventId)
    requires written == s.(events := SetStatus(s.events, eventId, newStatus))
    ensures var r := FetchEventDetails(written, bundle, eventId, currentUid).0;
      && r.actionError == s.actionError
      && (forall x: Event | x.id != eventId :: multiset(r.events)[x] == multiset(s.events)[x])
      && (forall x: Event | x.id != eventId :: multiset(r.myEventRequests)[x] == multiset(s.myEventRequests)[x])
      && WithoutId(r.events, eventId) == WithoutId(s.events, eventId)
      && WithoutId(r.myEventRequests, eventId) == WithoutId(s.myEventRequests, eventId)
      && var refreshed := Q.FetchSingleEventForStudent(bundle, eventId, ProfileStore.StudentIdOf(currentUid));
      && (refreshed.Success? && refreshed.value.Some? ==>
            && r.viewedEventDetails == refreshed.value && r.fetchError.None?
            && (HasId(r.events, eventId) <==> Q.IsPublic(refreshed.value.value))
            && (HasId(r.myEventRequests, eventId) <==> IsOwnPendingRequest(refreshed.value.value, currentUid))
            && (forall k | Q.FirstWithId(r.events, eventId, k) :: r.events[k].status == refreshed.value.value.status))
      && (!(refreshed.Success? && refreshed.value.Some?) ==>
            && r.myEventRequests == s.myEventRequests && r.viewedEventDetails == s.viewedEventDetails
            && (r.fetchError.Some? <==> refreshed.Failure?)
            && HasId(r.events, eventId)
            && (forall k | Q.FirstWithId(r.events, eventId, k) :: r.events[k].status == newStatus))
  {
    var sid := ProfileStore.StudentIdOf(currentUid);
    var refreshed := Q.FetchSingleEventForStudent(bundle, eventId, sid);
    var r := FetchEventDetails(written, bundle, eventId, currentUid).0;
    var k0 :| Q.FirstWithId(s.events, eventId, k0)
           && written.events == s.events[k0 := s.events[k0].(status := newStatus)];
    assert Q.FirstWithId(written.events, eventId, k0);
    SetStatusSameOthers(s.events, eventId, newStatus);
    if refreshed.Success? && refreshed.value.Some? {
      var e := refreshed.value.value;
      var cleared := written.(fetchError := None);
      assert e.id == eventId;
      assert r == UpdateLocalEvent(cleared, e, currentUid).(viewedEventDetails := Some(e));
      LocalUpdateSameOthers(cleared, e, currentUid);
      LocalUpdateKeepsPublicCopy(cleared, e, currentUid);
    } else {
      assert r.events == written.events;
      forall k | Q.FirstWithId(r.events, eventId, k)
        ensures r.events[k].status == newStatus
      {
        SetStatusFirst(s.events, eventId, newStatus, k);
      }
    }
  }

  /** When the bundled list holds no event with the id, shared or not, the
      bundle is unchanged and the written status is what the store keeps. */
  lemma StatusWriteKeptWithoutRefresh(s: StoreState, bundle: seq<Event>, eventId: string, newStatus: EventStatus,
                                      currentUid: Option<string>, shared: bool)
    requires currentUid.Some? && eventId != "" && HasId(s.events, eventId)
    requires forall j | 0 <= j < |bundle| :: bundle[j].id != eventId
    ensures var r := UpdateEventStatus(s, bundle, eventId, newStatus, currentUid, shared);
      && r.1 == bundle
      && exists k :: Q.FirstWithId(r.0.events, eventId, k) && r.0.events[k].status == newStatus
  {
    var r := UpdateEventStatus(s, bundle, eventId, newStatus, currentUid, shared);
    assert !HasId(bundle, eventId);
    assert r.1 == bundle;
    assert Q.FetchSingleEventForStudent(bundle, eventId, ProfileStore.StudentIdOf(currentUid)) == Success(None);
    var j :| 0 <= j < |r.0.events| && r.0.events[j].id == eventId;
    var k := FirstIndexWithId(r.0.events, eventId, j);
  }

  /** The first position holding the id, given some position that does. */
  function FirstIndexWithId(events: seq<Event>, eventId: string, j: int): (k: int)
    requires 0 <= j < |events| && events[j].id == eventId
    ensures Q.FirstWithId(events, eventId, k) && k <= j
  {
    match FindIndex(events, (x: Event) => x.id == eventId)
    case Some(k) => k
    case None => assert events[j].id == eventId; j
  }

  /** When the store entry is a copy separate from the bundled object, the
      refresh re-reads the unwritten bundle: a public bundled copy's status
      replaces the written one. */
  lemma StatusWriteOverwrittenByRefresh(s: StoreState, bundle: seq<Event>, eventId: string, newStatus: EventStatus,
                                        currentUid: Option<string>, b: int)
    requires currentUid.Some? && eventId != "" && HasId(s.events, eventId)
    requires Q.FirstWithId(bundle, eventId, b) && Q.IsPublic(bundle[b])
    ensures var r := UpdateEventStatus(s, bundle, eventId, newStatus, currentUid, false);
      exists k :: Q.FirstWithId(r.0.events, eventId, k) && r.0.events[k].status == bundle[b].status
  {
    var r := UpdateEventStatus(s, bundle, eventId, newStatus, currentUid, false);
    var refreshed := Q.FetchSingleEventForStudent(bundle, eventId, ProfileStore.StudentIdOf(currentUid));
    var k1 :| Q.FirstWithId(bundle, eventId, k1) && refreshed.value.value == bundle[k1];
    Q.FirstWithIdUnique(bundle, eventId, b, k1);
    var j :| 0 <= j < |r.0.events| && r.0.events[j].id == eventId;
    var k := FirstIndexWithId(r.0.events, eventId, j);
  }

  /** When the store entry is the bundled object itself, the write reaches
      the bundle, so the refresh reads the written status back: whatever the
      bundle held, every first entry with the id carries the new status. */
  lemma StatusWriteSticksWhenShared(s: StoreState, bundle: seq<Event>, eventId: string, newStatus: EventStatus,
                                    currentUid: Option<string>)
    requires currentUid.Some? && HasId(s.events, eventId)
    ensures var r := UpdateEventStatus(s, bundle, eventId, newStatus, currentUid, true);
      forall k | Q.FirstWithId(r.0.events, eventId, k) :: r.0.events[k].status == newStatus
  {
    var r := UpdateEventStatus(s, bundle, eventId, newStatus, currentUid, true);
    var refreshed := Q.FetchSingleEventForStudent(r.1, eventId, ProfileStore.StudentIdOf(currentUid));
    if refreshed.Success? && refreshed.value.Some? {
      var b :| Q.FirstWithId(r.1, eventId, b) && refreshed.value.value == r.1[b];
      SetStatusFirst(bundle, eventId, newStatus, b);
    }
  }

  /** pastEvents: the Closed entries of `events`, in order. */
  function PastEvents(s: StoreState): (r: seq<Event>)
    ensures forall j | 0 <= j < |r| :: r[j].status == Closed
    ensures forall x :: multiset(r)[x] == if x.status == Closed then multiset(s.events)[x] else 0
    ensures IsSubsequence(r, s.events)
  {
    var closed := (x: Event) => x.status == Closed;
    assert forall x :: multiset(Filter(s.events, closed))[x] == if closed(x) then multiset(s.events)[x] else 0 by {
      forall x ensures multiset(Filter(s.events, closed))[x] == if closed(x) then multiset(s.events)[x] else 0 {
        FilterCount(s.events, closed, x);
      }
    }
    Filter(s.events, closed)
  }

  /** Right after _updateLocalEvent the first entry of `events` with the
      event's id, when there is one, is Approved or Closed and carries the
      event's status. (requestNewEvent does not keep this: it appends a
      Pending request to `events`.) */
  lemma LocalUpdateKeepsPublicCopy(s: StoreState, e: Event, currentUid: Option<string>)
    ensures var r := UpdateLocalEvent(s, e, currentUid);
      forall k | Q.FirstWithId(r.events, e.id, k) :: Q.IsPublic(r.events[k]) && r.events[k].status == e.status
  {
    var r := UpdateLocalEvent(s, e, currentUid);
    forall k | Q.FirstWithId(r.events, e.id, k)
      ensures Q.IsPublic(r.events[k]) && r.events[k].status == e.status
    {
      assert HasId(r.events, e.id);
      if HasId(s.events, e.id) {
        var k0 :| Q.FirstWithId(s.events, e.id, k0) && r.events == s.events[k0 := Overlay(s.events[k0], e)];
        assert r.events[k0].id == e.id;
        assert Q.FirstWithId(r.events, e.id, k0);
        Q.FirstWithIdUnique(r.events, e.id, k, k0);
      } else {
        assert r.events == s.events + [e];
        assert forall i | 0 <= i < |s.events| :: r.events[i] == s.events[i];
        assert Q.FirstWithId(r.events, e.id, |s.events|);
        Q.FirstWithIdUnique(r.events, e.id, k, |s.events|);
      }
    }
  }
}

=== FILE: profile_service.dfy ===
/** Profile lookups of src/services/profileService.ts over the bundled user
    list, passed in as `users`. The default-XP factory the service calls is
    declared outside the modelled files and is the parameter `defaultXp`. */
module ProfileService {
  import opened Wrappers
  import opened Seqs
  import opened UserModel

  /** fetchStudentData: the first user with the uid plus default XP data, or
      null when no user has it. */
  function FetchStudentData<X>(users: seq<User>, uid: string, defaultXp: string -> X): (r: Option<EnrichedUser<X>>)
    ensures r.None? <==> forall j | 0 <= j < |users| :: users[j].uid != uid
    ensures r.Some? ==> exists k :: FirstWithUid(users, uid, k) && r.value.user == users[k]
    ensures r.Some? ==> r.value.xpData == Some(defaultXp(uid))
  {
    match FindIndex(users, (u: User) => u.uid == uid)
    case None => None
    case Some(k) =>
      assert FirstWithUid(users, uid, k);
      Some(EnrichedUser(users[k], Some(defaultXp(uid))))
  }

  /** The first `n` characters of `s`, or all of it when it is shorter
      (`substring(0, n)`). */
  function Prefix(s: string, n: nat): (r: string)
    ensures |r| == if |s| < n then |s| else n
    ensures r <= s
  {
    if |s| < n then s else s[..n]
  }

  /** The name shown for an id: the first matching user's name when it is
      non-empty, else "User (" and the id's first five characters and ")". */
  function DisplayName(users: seq<User>, id: string): (r: string)
    ensures (exists k :: FirstWithUid(users, id, k) && users[k].name.Val? && users[k].name.value != "")
            ==> exists k :: FirstWithUid(users, id, k) && r == users[k].name.value
    ensures !(exists k :: FirstWithUid(users, id, k) && users[k].name.Val? && users[k].name.value != "")
            ==> r == "User (" + Prefix(id, 5) + ")"
    ensures r != ""
  {
    match FindIndex(users, (u: User) => u.uid == id)
    case Some(k) =>
      assert FirstWithUid(users, id, k);
      if users[k].name.Val? && users[k].name.value != "" then users[k].name.value
      else "User (" + Prefix(id, 5) + ")"
    case None => "User (" + Prefix(id, 5) + ")"
  }

  /** The distinct non-empty ids of `xs` not in `seen`, in order of first
      occurrence. */
  function UniqueFrom(xs: seq<string>, seen: set<string>): (r: seq<string>)
    ensures forall i, j | 0 <= i < j < |r| :: r[i] != r[j]
    ensures forall x :: x in r <==> x in xs && x != "" && x !in seen
  {
    if |xs| == 0 then []
    else if xs[0] == "" || xs[0] in seen then UniqueFrom(xs[1..], seen)
    else [xs[0]] + UniqueFrom(xs[1..], seen + {xs[0]})
  }

  /** `[...new Set(uids.filter(Boolean))]`. */
  function UniqueIds(uids: seq<string>): (r: seq<string>)
    ensures forall i, j | 0 <= i < j < |r| :: r[i] != r[j]
    ensures forall x :: x in r <==> x in uids && x != ""
  {
    UniqueFrom(uids, {})
  }

  /** The `forEach` that fills the names map, one id at a time. */
  function AssignNames(users: seq<User>, ids: seq<string>, acc: map<string, string>): (r: map<string, string>)
    ensures r.Keys == acc.Keys + set id | id in ids
    ensures forall id | id in ids :: r[id] == DisplayName(users, id)
    ensures forall id | id in acc && id !in ids :: r[id] == acc[id]
  {
    if |ids| == 0 then acc
    else AssignNames(users, ids[1..], acc[ids[0] := DisplayName(users, ids[0])])
  }

  /** fetchUserNamesBatch: a display name for every distinct non-empty id. */
  function FetchUserNamesBatch(users: seq<User>, uids: seq<string>): (r: map<string, string>)
    ensures forall id :: id in r <==> id in uids && id != ""
    ensures forall id | id in r :: r[id] == DisplayName(users, id)
  {
    var unique := UniqueIds(uids);
    if |unique| == 0 then map[] else AssignNames(users, unique, map[])
  }

  /** fetchAllStudentProfiles: the bundled list as it is. */
  function FetchAllStudentProfiles(users: seq<User>): (r: seq<User>)
    ensures r == users
  {
    users
  }

  /** fetchLeaderboardData: every user, in order, with default XP data. */
  function FetchLeaderboardData<X>(users: seq<User>, defaultXp: string -> X): (r: seq<EnrichedUser<X>>)
    ensures |r| == |users|
    ensures forall i | 0 <= i < |r| :: r[i].user == users[i] && r[i].xpData == Some(defaultXp(users[i].uid))
  {
    seq(|users|, i requires 0 <= i < |users| => EnrichedUser(users[i], Some(defaultXp(users[i].uid))))
  }

  // --- Properties relating several lookups ---

  /** The leaderboard and the single-profile lookup agree: the profile found
      for a uid is the leaderboard entry of the first user with that uid. */
  lemma LeaderboardAgreesWithProfile<X>(users: seq<User>, defaultXp: string -> X, i: int)
    requires 0 <= i < |users|
    ensures var uid := users[i].uid;
      exists k | 0 <= k <= i :: FetchStudentData(users, uid, defaultXp) == Some(FetchLeaderboardData(users, defaultXp)[k])
  {
    var uid := users[i].uid;
    var board := FetchLeaderboardData(users, defaultXp);
    var found := FetchStudentData(users, uid, defaultXp);
    var k :| FirstWithUid(users, uid, k) && found.value.user == users[k];
    assert k <= i;
    assert board[k] == EnrichedUser(users[k], Some(defaultXp(users[k].uid)));
  }

  /** The fallback name: "User (" and at most five characters of the id. */
  lemma FallbackNameShape(users: seq<User>, id: string)
    requires forall j | 0 <= j < |users| :: users[j].uid != id
    ensures DisplayName(users, id) == "User (" + Prefix(id, 5) + ")"
    ensures |DisplayName(users, id)| == 7 + (if |id| < 5 then |id| else 5)
  {
  }

  /** Asking for the same ids twice, or in another order, gives the same
      map. */
  lemma NamesIgnoreRepeatsAndOrder(users: seq<User>, a: seq<string>, b: seq<string>)
    requires forall x :: x in a <==> x in b
    ensures FetchUserNamesBatch(users, a) == FetchUserNamesBatch(users, b)
  {
    var ra, rb := FetchUserNamesBatch(users, a), FetchUserNamesBatch(users, b);
    assert ra.Keys == rb.Keys;
  }
}

=== FILE: profile_store.dfy ===
/** The profile store of src/stores/profileStore.ts: the signed-in student,
    the held user list and a name cache whose entries are fresh for one hour.

    The clock is a parameter: `now` is the time the cache is consulted and
    `fetchedAt` the time the fetched names are stored. The batch name service
    is the parameter `service`; it yields a map, or `None` when it throws. */
module ProfileStore {
  import opened Wrappers
  import opened Seqs
  import opened UserModel
  import PS = ProfileService

  datatype CacheEntry = CacheEntry(name: string, timestamp: int)

  datatype ProfileState<X> = ProfileState(
    currentStudent: Option<EnrichedUser<X>>,
    allUsers: seq<User>,
    nameCache: map<string, CacheEntry>,
    error: Option<string>)

  /** The `studentId` getter: the current student's uid, or null when there
      is no student or the uid is empty. `currentUid` is the current
      student's uid, `None` when there is no current student. */
  function StudentIdOf(currentUid: Option<string>): (r: Option<string>)
    ensures r.Some? <==> currentUid.Some? && currentUid.value != ""
    ensures r.Some? ==> r == currentUid
  {
    if currentUid.Some? && currentUid.value != "" then currentUid else None
  }

  /** One hour, in milliseconds. */
  const NameCacheTtlMs: int := 3600000

  /** A cached name younger than one hour; an entry exactly one hour old is
      stale. */
  predicate IsFresh(cache: map<string, CacheEntry>, id: string, now: int) {
    id in cache && now - cache[id].timestamp < NameCacheTtlMs
  }

  /** The result of a batch name lookup: the names found and the ids sent
      to the service, if a request was made. */
  datatype NamesLookup = NamesLookup(names: map<string, string>, request: Option<seq<string>>)

  /** The names answered from the cache. */
  function CacheHits(cache: map<string, CacheEntry>, uids: seq<string>, now: int): (r: map<string, string>)
    ensures forall id :: id in r <==> id in uids && IsFresh(cache, id, now)
    ensures forall id | id in r :: id in cache && r[id] == cache[id].name
  {
    map id | id in uids && IsFresh(cache, id, now) :: cache[id].name
  }

  /** The ids to send to the service: the input ids without a fresh entry,
      in input order, repeats kept. */
  function IdsToFetch(cache: map<string, CacheEntry>, uids: seq<string>, now: int): (r: seq<string>)
    ensures forall j | 0 <= j < |r| :: !IsFresh(cache, r[j], now)
    ensures forall id :: multiset(r)[id] == if IsFresh(cache, id, now) then 0 else multiset(uids)[id]
    ensures IsSubsequence(r, uids)
  {
    var stale := (id: string) => !IsFresh(cache, id, now);
    assert forall id :: multiset(Filter(uids, stale))[id] == if stale(id) then multiset(uids)[id] else 0 by {
      forall id ensures multiset(Filter(uids, stale))[id] == if stale(id) then multiset(uids)[id] else 0 {
        FilterCount(uids, stale, id);
      }
    }
    Filter(uids, stale)
  }

  /** Stores every fetched name with the fetch time. */
  function Remember(cache: map<string, CacheEntry>, fetched: map<string, string>, fetchedAt: int): (r: map<string, CacheEntry>)
    ensures r.Keys == cache.Keys + fetched.Keys
    ensures forall id | id in fetched :: r[id] == CacheEntry(fetched[id], fetchedAt)
    ensures forall id | id in cache && id !in fetched :: r[id] == cache[id]
  {
    cache + map id | id in fetched :: CacheEntry(fetched[id], fetchedAt)
  }

  /** fetchUserNamesBatch: fresh cache entries answer directly; the rest go
      to the service in one request, issued only when there is something to
      fetch. On success the fetched names overlay the cache hits and are
      cached; on failure only the hits are returned and the error is set. */
  function FetchUserNamesBatch<X>(s: ProfileState<X>, uids: seq<string>, now: int, fetchedAt: int,
                                  service: seq<string> -> Option<map<string, string>>)
    : (r: (ProfileState<X>, NamesLookup))
    ensures r.1.request.None? <==> forall j | 0 <= j < |uids| :: IsFresh(s.nameCache, uids[j], now)
    ensures r.1.request.None? ==> r.0 == s && r.1.names == CacheHits(s.nameCache, uids, now)
    ensures r.1.request.Some? ==> r.1.request.value == IdsToFetch(s.nameCache, uids, now)
    ensures r.1.request.Some? && service(r.1.request.value).None? ==>
      && r.0 == s.(error := Some("Failed to fetch user names."))
      && r.1.names == CacheHits(s.nameCache, uids, now)
    ensures r.1.request.Some? && service(r.1.request.value).Some? ==>
      var fetched := service(r.1.request.value).value;
      && r.0 == s.(nameCache := Remember(s.nameCache, fetched, fetchedAt))
      && r.1.names.Keys == CacheHits(s.nameCache, uids, now).Keys + fetched.Keys
      && (forall id | id in fetched :: r.1.names[id] == fetched[id])
      && (forall id | id in r.1.names && id !in fetched :: r.1.names[id] == s.nameCache[id].name)
  {
    var hits := CacheHits(s.nameCache, uids, now);
    var toFetch := IdsToFetch(s.nameCache, uids, now);
    if |toFetch| == 0 then
      assert forall j | 0 <= j < |uids| :: IsFresh(s.nameCache, uids[j], now) by {
        forall j | 0 <= j < |uids| ensures IsFresh(s.nameCache, uids[j], now) {
          assert multiset(uids)[uids[j]] > 0;
        }
      }
      (s, NamesLookup(hits, None))
    else
      assert !IsFresh(s.nameCache, toFetch[0], now);
      assert multiset(uids)[toFetch[0]] > 0;
      match service(toFetch)
      case None => (s.(error := Some("Failed to fetch user names.")), NamesLookup(hits, Some(toFetch)))
      case Some(fetched) =>
        (s.(nameCache := Remember(s.nameCache, fetched, fetchedAt)), NamesLookup(hits + fetched, Some(toFetch)))
  }

  /** The bundled service, which never fails. */
  function BundledService(users: seq<User>): seq<string> -> Option<map<string, string>> {
    ids => Some(PS.FetchUserNamesBatch(users, ids))
  }

  /** Against the bundled service, every non-empty id gets a name: the cached
      one while it is fresh, the service's display name otherwise. */
  lemma NamesFromBundledService<X>(s: ProfileState<X>, users: seq<User>, uids: seq<string>, now: int, fetchedAt: int)
    ensures var names := FetchUserNamesBatch(s, uids, now, fetchedAt, BundledService(users)).1.names;
      && (forall id | id in uids && id != "" :: id in names)
      && (forall id | id in names :: id in uids)
      && (forall id | id in names ::
            names[id] == if IsFresh(s.nameCache, id, now) then s.nameCache[id].name else PS.DisplayName(users, id))
  {
    var r := FetchUserNamesBatch(s, uids, now, fetchedAt, BundledService(users));
    var toFetch := IdsToFetch(s.nameCache, uids, now);
    forall id | id in uids && id != "" && !IsFresh(s.nameCache, id, now)
      ensures id in toFetch
    {
      assert multiset(toFetch)[id] == multiset(uids)[id] > 0;
    }
    forall id | id in toFetch
      ensures id in uids
    {
      assert multiset(uids)[id] >= multiset(toFetch)[id] > 0;
    }
  }

  /** After a successful request to the bundled service, asking again for the
      same non-empty ids within the hour, while the earlier hits are still
      fresh, issues no request. */
  lemma SecondLookupWithinHourHitsCache<X>(s: ProfileState<X>, users: seq<User>, uids: seq<string>,
                                          now: int, fetchedAt: int, later: int)
    requires forall j | 0 <= j < |uids| :: uids[j] != ""
    requires later - fetchedAt < NameCacheTtlMs
    requires forall j | 0 <= j < |uids| :: IsFresh(s.nameCache, uids[j], now) ==> IsFresh(s.nameCache, uids[j], later)
    ensures var first := FetchUserNamesBatch(s, uids, now, fetchedAt, BundledService(users));
      FetchUserNamesBatch(first.0, uids, later, later, BundledService(users)).1.request.None?
  {
    var first := FetchUserNamesBatch(s, uids, now, fetchedAt, BundledService(users));
    var toFetch := IdsToFetch(s.nameCache, uids, now);
    forall j | 0 <= j < |uids|
      ensures IsFresh(first.0.nameCache, uids[j], later)
    {
      var id := uids[j];
      if !IsFresh(s.nameCache, id, now) {
        assert multiset(toFetch)[id] == multiset(uids)[id] > 0;
        assert id in toFetch;
        var fetched := PS.FetchUserNamesBatch(users, toFetch);
        assert id in fetched;
        assert first.0.nameCache == Remember(s.nameCache, fetched, fetchedAt);
      }
    }
  }

  /** fetchAllStudentProfiles: a non-empty held list is returned without
      fetching; otherwise the fetched list is held and returned, or on
      failure the error is set and the answer is empty. `fetched` is what
      the service would yield, `None` when it throws. */
  function FetchAllStudentProfiles<X>(s: ProfileState<X>, fetched: Option<seq<User>>): (r: (ProfileState<X>, seq<User>))
    ensures |s.allUsers| > 0 ==> r == (s, s.allUsers)
    ensures |s.allUsers| == 0 && fetched.Some? ==> r == (s.(allUsers := fetched.value), fetched.value)
    ensures |s.allUsers| == 0 && fetched.None? ==>
      r == (s.(error := Some("Failed to fetch all user profiles.")), [])
  {
    if |s.allUsers| > 0 then (s, s.allUsers)
    else
      match fetched
      case Some(users) => (s.(allUsers := users), users)
      case None => (s.(error := Some("Failed to fetch all user profiles.")), [])
  }

  /** Against the bundled service the store hands back the bundled list
      unchanged, unless it already holds a non-empty list; once it holds the
      bundled list, later calls return it whatever the service would
      yield. */
  lemma ProfilesFetchedOnce<X>(s: ProfileState<X>, users: seq<User>, later: Option<seq<User>>)
    requires |users| > 0
    ensures var first := FetchAllStudentProfiles(s, Some(PS.FetchAllStudentProfiles(users)));
      && (|s.allUsers| == 0 ==> first.1 == users && first.0.allUsers == users)
      && FetchAllStudentProfiles(first.0, later) == (first.0, first.1)
  {
  }
}

=== FILE: query_parity.dfy ===
/** The event queries read the bundled event list directly, while the
    static adapter answers filter queries over the same records held as
    JSON documents. This module shows that the two routes agree: the adapter
    queries that express "public" and "my pending requests" select exactly
    the documents that mirror the events the direct queries return, in the
    same order. */
module QueryParity {
  import opened Wrappers
  import opened Seqs
  import opened EventModel
  import opened Documents
  import opened StaticDataAdapter
  import opened EventQueries

  /** A document carries the event's id, status name and requester. */
  predicate Mirrors(d: Doc, e: Event) {
    && Lookup(d, "id") == Some(JStr(e.id))
    && Lookup(d, "status") == Some(JStr(StatusName(e.status)))
    && Lookup(d, "requestedBy") == Some(JStr(e.requestedBy))
  }

  predicate MirrorsAll(docs: seq<Doc>, events: seq<Event>) {
    |docs| == |events| && forall i | 0 <= i < |docs| :: Mirrors(docs[i], events[i])
  }

  /** The adapter filter for the publicly viewable statuses. */
  const PublicFilter: QueryFilter := map["status" := JArr([JStr("Approved"), JStr("Closed")])]

  /** The adapter filter for one student's pending requests. */
  function MyRequestsFilter(studentId: string): QueryFilter {
    map["requestedBy" := JStr(studentId), "status" := JStr("Pending")]
  }

  lemma PublicEntry(d: Doc, e: Event)
    requires Mirrors(d, e)
    ensures Matches(PublicFilter)(d) <==> IsPublic(e)
  {
    var allowed := [JStr("Approved"), JStr("Closed")];
    assert PublicFilter["status"] == JArr(allowed);
    if e.status == Approved {
      assert StrictEquals(Lookup(d, "status"), allowed[0]);
    } else if e.status == Closed {
      assert StrictEquals(Lookup(d, "status"), allowed[1]);
    } else {
      assert !StrictEquals(Lookup(d, "status"), allowed[0]);
      assert !StrictEquals(Lookup(d, "status"), allowed[1]);
    }
  }

  lemma MyRequestsEntry(d: Doc, e: Event, studentId: string)
    requires Mirrors(d, e)
    ensures Matches(MyRequestsFilter(studentId))(d) <==> PendingOf(studentId)(e)
  {
    var f := MyRequestsFilter(studentId);
    assert f["requestedBy"] == JStr(studentId) && f["status"] == JStr("Pending");
    if PendingOf(studentId)(e) {
      assert forall k | k in f :: k == "requestedBy" || k == "status";
    } else {
      assert !EntryMatches(Lookup(d, "requestedBy"), f["requestedBy"]) || !EntryMatches(Lookup(d, "status"), f["status"]);
    }
  }

  /** queryEvents with the public-status filter returns the documents of
      the events fetchPubliclyViewableEvents returns, in the same order. */
  lemma {:induction false} PublicQueryMirrorsPublicEvents(docs: seq<Doc>, events: seq<Event>)
    requires MirrorsAll(docs, events)
    ensures MirrorsAll(Filter(docs, Matches(PublicFilter)), FetchPubliclyViewableEvents(events))
  {
    forall i | 0 <= i < |docs|
      ensures Mirrors(docs[i], events[i]) && (Matches(PublicFilter)(docs[i]) <==> IsPublic(events[i]))
    {
      PublicEntry(docs[i], events[i]);
    }
    FilterCorresponds(docs, events, Matches(PublicFilter), IsPublic, Mirrors);
  }

  /** queryEvents with the requester-and-Pending filter returns the
      documents of the events fetchMyEventRequests returns, in the same
      order, for any non-empty student id. */
  lemma {:induction false} RequestQueryMirrorsMyRequests(docs: seq<Doc>, events: seq<Event>, studentId: string)
    requires MirrorsAll(docs, events)
    requires studentId != ""
    ensures MirrorsAll(Filter(docs, Matches(MyRequestsFilter(studentId))), FetchMyEventRequests(events, studentId))
  {
    forall i | 0 <= i < |docs|
      ensures Mirrors(docs[i], events[i])
        && (Matches(MyRequestsFilter(studentId))(docs[i]) <==> PendingOf(studentId)(events[i]))
    {
      MyRequestsEntry(docs[i], events[i], studentId);
    }
    FilterCorresponds(docs, events, Matches(MyRequestsFilter(studentId)), PendingOf(studentId), Mirrors);
  }

  /** The same agreement through the adapter itself: once the events file
      has been loaded into documents that mirror the bundled events, the
      public-status query mirrors fetchPubliclyViewableEvents. */
  lemma AdapterPublicQuery(a: Adapter, load: Load, events: seq<Event>)
    requires GetAll(a, Events, load).result.Success?
    requires MirrorsAll(GetAll(a, Events, load).result.value, events)
    ensures Query(a, Events, load, PublicFilter).result.Success?
    ensures MirrorsAll(Query(a, Events, load, PublicFilter).result.value, FetchPubliclyViewableEvents(events))
  {
    PublicQueryMirrorsPublicEvents(GetAll(a, Events, load).result.value, events);
  }
}

=== FILE: seqs.dfy ===
/** Order-preserving sequence helpers: the model's `Array.prototype.filter`,
    `findIndex` and `find`. */
module Seqs {
  import opened Wrappers

  /** `r` is `s` with some elements left out: the elements of `r` occur in
      `s` in the same relative order. */
  predicate IsSubsequence<T(==)>(r: seq<T>, s: seq<T>)
    decreases |s|
  {
    || |r| == 0
    || (&& |s| > 0
        && ((r[0] == s[0] && IsSubsequence(r[1..], s[1..])) || IsSubsequence(r, s[1..])))
  }

  /** The elements of `s` satisfying `p`, in their original order. */
  function Filter<T(==,!new)>(s: seq<T>, p: T -> bool): (r: seq<T>)
    ensures |r| <= |s|
    ensures forall i | 0 <= i < |r| :: p(r[i])
    ensures forall x :: x in r <==> x in s && p(x)
    ensures IsSubsequence(r, s)
  {
    if |s| == 0 then []
    else
      var rest := Filter(s[1..], p);
      assert s == [s[0]] + s[1..];
      if p(s[0]) then
        assert ([s[0]] + rest)[1..] == rest;
        [s[0]] + rest
      else rest
  }

  /** A subsequence holds each value at most as often as the sequence. */
  lemma {:induction false} SubsequenceCounts<T>(r: seq<T>, s: seq<T>, x: T)
    requires IsSubsequence(r, s)
    ensures multiset(r)[x] <= multiset(s)[x]
    decreases |s|
  {
    if |r| > 0 {
      assert s == [s[0]] + s[1..];
      assert multiset(s)[x] == multiset(s[1..])[x] + (if s[0] == x then 1 else 0);
      if r[0] == s[0] && IsSubsequence(r[1..], s[1..]) {
        assert r == [r[0]] + r[1..];
        SubsequenceCounts(r[1..], s[1..], x);
      } else {
        SubsequenceCounts(r, s[1..], x);
      }
    }
  }

  /** Filter is the only order-preserving selection of exactly the
      satisfying elements: a subsequence of `s` whose elements all satisfy
      `p`, and that keeps every satisfying element as often as `s` holds it,
      is `Filter(s, p)`. */
  lemma {:induction false} FilterUnique<T(!new)>(s: seq<T>, r: seq<T>, p: T -> bool)
    requires IsSubsequence(r, s)
    requires forall i | 0 <= i < |r| :: p(r[i])
    requires forall x :: multiset(r)[x] == if p(x) then multiset(s)[x] else 0
    ensures r == Filter(s, p)
    decreases |s|
  {
    if |s| == 0 {
      assert |r| == 0;
    } else {
      var t := s[1..];
      assert s == [s[0]] + t;
      assert forall x :: multiset(s)[x] == multiset(t)[x] + (if s[0] == x then 1 else 0);
      if p(s[0]) {
        assert multiset(r)[s[0]] > 0;
        assert |r| > 0;
        if r[0] == s[0] && IsSubsequence(r[1..], t) {
          var u := r[1..];
          assert r == [r[0]] + u;
          assert forall x :: multiset(r)[x] == multiset(u)[x] + (if r[0] == x then 1 else 0);
          forall i | 0 <= i < |u| ensures p(u[i]) {
            assert u[i] == r[i + 1];
          }
          FilterUnique(t, u, p);
        } else {
          SubsequenceCounts(r, t, s[0]);
          assert false;
        }
      } else {
        if |r| > 0 {
          assert p(r[0]);
        }
        assert IsSubsequence(r, t);
        FilterUnique(t, r, p);
      }
    }
  }

  /** Filtering keeps every satisfying element as often as it occurs in the
      input and drops every other one. */
  lemma {:induction false} FilterCount<T(!new)>(s: seq<T>, p: T -> bool, x: T)
    ensures multiset(Filter(s, p))[x] == if p(x) then multiset(s)[x] else 0
  {
    if |s| > 0 {
      var t := s[1..];
      FilterCount(t, p, x);
      assert s == [s[0]] + t;
      assert multiset(s)[x] == multiset(t)[x] + (if s[0] == x then 1 else 0);
      if p(s[0]) {
        var r := [s[0]] + Filter(t, p);
        assert Filter(s, p) == r;
        assert multiset(r)[x] == multiset(Filter(t, p))[x] + (if s[0] == x then 1 else 0);
      } else {
        assert Filter(s, p) == Filter(t, p);
      }
    }
  }

  /** Overwriting one position changes the count of neither the old nor the
      new value's bystanders. */
  lemma UpdateKeepsOtherCounts<T>(s: seq<T>, k: int, v: T, x: T)
    requires 0 <= k < |s| && x != s[k] && x != v
    ensures multiset(s[k := v])[x] == multiset(s)[x]
  {
    var before, after := s[..k], s[k + 1..];
    assert s == before + [s[k]] + after;
    assert s[k := v] == before + [v] + after;
  }

  /** Filtering distributes over concatenation, so the kept elements keep
      their relative order. */
  lemma {:induction false} FilterAppend<T(!new)>(a: seq<T>, b: seq<T>, p: T -> bool)
    ensures Filter(a + b, p) == Filter(a, p) + Filter(b, p)
  {
    if |a| == 0 {
      assert a + b == b;
    } else {
      assert (a + b)[1..] == a[1..] + b;
      FilterAppend(a[1..], b, p);
    }
  }

  /** Filtering with a predicate every element satisfies returns the input. */
  lemma {:induction false} FilterKeepsAll<T(!new)>(s: seq<T>, p: T -> bool)
    requires forall i | 0 <= i < |s| :: p(s[i])
    ensures Filter(s, p) == s
  {
    if |s| > 0 {
      FilterKeepsAll(s[1..], p);
    }
  }

  /** Two sequences related pointwise by `R`, filtered by predicates that
      agree on related elements, give results that are again related
      pointwise. */
  lemma {:induction false} FilterCorresponds<A(!new), B(!new)>(xs: seq<A>, ys: seq<B>, p: A -> bool, q: B -> bool, R: (A, B) -> bool)
    requires |xs| == |ys|
    requires forall i | 0 <= i < |xs| :: R(xs[i], ys[i]) && (p(xs[i]) <==> q(ys[i]))
    ensures |Filter(xs, p)| == |Filter(ys, q)|
    ensures forall i | 0 <= i < |Filter(xs, p)| :: R(Filter(xs, p)[i], Filter(ys, q)[i])
  {
    if |xs| > 0 {
      var xt, yt := xs[1..], ys[1..];
      assert forall i | 0 <= i < |xt| :: R(xt[i], yt[i]) && (p(xt[i]) <==> q(yt[i])) by {
        forall i | 0 <= i < |xt|
          ensures R(xt[i], yt[i]) && (p(xt[i]) <==> q(yt[i]))
        {
          assert xt[i] == xs[i + 1] && yt[i] == ys[i + 1];
        }
      }
      var fx, fy := Filter(xt, p), Filter(yt, q);
      FilterCorresponds(xt, yt, p, q, R);
      assert R(xs[0], ys[0]) && (p(xs[0]) <==> q(ys[0]));
      if p(xs[0]) {
        assert Filter(xs, p) == [xs[0]] + fx;
        assert Filter(ys, q) == [ys[0]] + fy;
        forall i | 0 <= i < |Filter(xs, p)|
          ensures R(Filter(xs, p)[i], Filter(ys, q)[i])
        {
          if i > 0 {
            assert Filter(xs, p)[i] == fx[i - 1];
            assert Filter(ys, q)[i] == fy[i - 1];
          }
        }
      } else {
        assert Filter(xs, p) == fx;
        assert Filter(ys, q) == fy;
      }
    }
  }

  /** The index of the first element satisfying `p`, if any. */
  function FindIndex<T>(s: seq<T>, p: T -> bool): (r: Option<nat>)
    ensures r.Some? ==> r.value < |s| && p(s[r.value])
    ensures r.Some? ==> forall j | 0 <= j < r.value :: !p(s[j])
    ensures r.None? <==> forall j | 0 <= j < |s| :: !p(s[j])
  {
    if |s| == 0 then None
    else if p(s[0]) then Some(0)
    else
      match FindIndex(s[1..], p)
      case None => None
      case Some(k) => Some(k + 1)
  }

  /** The first element satisfying `p`, if any. */
  function Find<T>(s: seq<T>, p: T -> bool): (r: Option<T>)
    ensures r.Some? ==> r.value in s && p(r.value)
    ensures r.None? <==> forall j | 0 <= j < |s| :: !p(s[j])
  {
    match FindIndex(s, p)
    case None => None
    case Some(k) => Some(s[k])
  }
}

=== FILE: signup_utils.dfy ===
/** The batch-year check of src/utils/signupUtils.ts. The current year,
    read from the clock in the source, is a parameter. */
module SignupUtils {

  /** isValidBatchYear: within five years either side of the current year,
      both ends included. */
  function IsValidBatchYear(year: int, currentYear: int): (r: bool)
    ensures r <==> currentYear - 5 <= year <= currentYear + 5
  {
    year >= currentYear - 5 && year <= currentYear + 5
  }

  /** The years a signup form accepts, within a range wide enough to hold
      them all. */
  function ValidYears(currentYear: int): set<int> {
    set y | currentYear - 10 <= y <= currentYear + 10 && IsValidBatchYear(y, currentYear)
  }

  /** The integers from `lo` up to but excluding `hi`. */
  function Range(lo: int, hi: int): (r: set<int>)
    ensures forall y :: y in r <==> lo <= y < hi
    decreases hi - lo
  {
    if lo >= hi then {} else {lo} + Range(lo + 1, hi)
  }

  lemma {:induction false} RangeSize(lo: int, hi: int)
    requires lo <= hi
    ensures |Range(lo, hi)| == hi - lo
    decreases hi - lo
  {
    if lo < hi {
      RangeSize(lo + 1, hi);
      assert lo !in Range(lo + 1, hi);
    }
  }

  /** Exactly eleven years are valid; every valid year is among them; the
      current year is one and the years six away are not. */
  lemma ElevenValidYears(currentYear: int)
    ensures |ValidYears(currentYear)| == 11
    ensures forall y | IsValidBatchYear(y, currentYear) :: y in ValidYears(currentYear)
    ensures IsValidBatchYear(currentYear, currentYear)
    ensures !IsValidBatchYear(currentYear - 6, currentYear) && !IsValidBatchYear(currentYear + 6, currentYear)
  {
    assert ValidYears(currentYear) == Range(currentYear - 5, currentYear + 6);
    RangeSize(currentYear - 5, currentYear + 6);
  }
}

=== FILE: static_adapter.dfy ===
/** The snapshot data adapter of
    src/services/dataAdapter/StaticDataAdapter.ts: each collection is loaded
    from its JSON file on first use, cached for the adapter's lifetime, and
    every write changes only the cache. Events are keyed by `id`, students by
    `uid`; apart from that the two collections behave alike, and only events
    can be deleted.

    Fetching a file is a parameter (`Load`): the records the file would
    yield, the status text of a response that is not ok, or the message of
    an error the fetch or the JSON parse raised itself. The generated id of a new
    record is a parameter too. */
module StaticDataAdapter {
  import opened Wrappers
  import opened Seqs
  import opened Documents

  datatype Collection = Events | Students

  /** The key that identifies a record of the collection. */
  function KeyField(c: Collection): string {
    match c
    case Events => "id"
    case Students => "uid"
  }

  function FileName(c: Collection): string {
    match c
    case Events => "events.json"
    case Students => "students.json"
  }

  /** The adapter's state: one cache per collection, null until loaded. */
  datatype Adapter = Adapter(eventsCache: Option<seq<Doc>>, studentsCache: Option<seq<Doc>>)

  /** A freshly constructed adapter has loaded nothing. */
  const NewAdapter: Adapter := Adapter(None, None)

  function CacheOf(a: Adapter, c: Collection): Option<seq<Doc>> {
    match c
    case Events => a.eventsCache
    case Students => a.studentsCache
  }

  /** Replaces one collection's cache and leaves the other alone. */
  function WithCache(a: Adapter, c: Collection, docs: seq<Doc>): (r: Adapter)
    ensures CacheOf(r, c) == Some(docs)
    ensures forall c' | c' != c :: CacheOf(r, c') == CacheOf(a, c')
  {
    match c
    case Events => a.(eventsCache := Some(docs))
    case Students => a.(studentsCache := Some(docs))
  }

  datatype AdapterError =
    | LoadFailed(file: string, statusText: string)
    | Raised(message: string)
    | NotFound(collection: Collection, id: string)
  {
    /** The text of the thrown error. An error the runtime raised keeps its
        own message. */
    function Message(): string {
      match this
      case LoadFailed(file, statusText) => "Failed to load " + file + ": " + statusText
      case Raised(message) => message
      case NotFound(Events, id) => "Event not found: " + id
      case NotFound(Students, id) => "Student not found: " + id
    }
  }

  /** Why fetching a file failed: the response was not ok (its status
      text), or the request was rejected or the body was not JSON (the
      raised error's message). */
  datatype LoadError = NotOk(statusText: string) | Thrown(message: string)

  /** What fetching a collection's file yields. */
  type Load = Result<seq<Doc>, LoadError>

  /** An operation's outcome: the adapter afterwards and its result or
      thrown error. */
  datatype Step<T> = Step(adapter: Adapter, result: Result<T, AdapterError>)

  /** `record.id === id` (or `record.uid === id` for students). */
  predicate HasKey(d: Doc, c: Collection, id: string) {
    StrictEquals(Lookup(d, KeyField(c)), JStr(id))
  }

  /** getEvents / getStudents: the cached records, loading them only when
      nothing is cached. A failed load caches nothing. */
  function GetAll(a: Adapter, c: Collection, load: Load): (r: Step<seq<Doc>>)
    ensures CacheOf(a, c).Some? ==> r == Step(a, Success(CacheOf(a, c).value))
    ensures r.result.Success? ==> r.adapter == WithCache(a, c, r.result.value)
    ensures r.result.Failure? ==> r.adapter == a && CacheOf(a, c).None? && load.Failure?
    ensures r.result.Failure? && load.error.NotOk? ==> r.result.error == LoadFailed(FileName(c), load.error.statusText)
    ensures r.result.Failure? && load.error.Thrown? ==> r.result.error == Raised(load.error.message)
    ensures r.result.Failure? && load.error.NotOk? ==>
      r.result.error.Message() == "Failed to load " + FileName(c) + ": " + load.error.statusText
    ensures r.result.Failure? && load.error.Thrown? ==> r.result.error.Message() == load.error.message
    ensures CacheOf(a, c).None? && load.Success? ==> r.result == Success(load.value)
  {
    match CacheOf(a, c)
    case Some(docs) => Step(a, Success(docs))
    case None =>
      match load
      case Success(docs) => Step(WithCache(a, c, docs), Success(docs))
      case Failure(NotOk(statusText)) => Step(a, Failure(LoadFailed(FileName(c), statusText)))
      case Failure(Thrown(message)) => Step(a, Failure(Raised(message)))
  }

  /** getEvent / getStudent: the first record with the id, or null. */
  function Get(a: Adapter, c: Collection, load: Load, id: string): (r: Step<Option<Doc>>)
    ensures r.adapter == GetAll(a, c, load).adapter
    ensures r.result.Failure? <==> GetAll(a, c, load).result.Failure?
    ensures r.result.Success? ==>
      var docs := GetAll(a, c, load).result.value;
      && (r.result.value.None? <==> forall j | 0 <= j < |docs| :: !HasKey(docs[j], c, id))
      && (r.result.value.Some? ==>
            exists k | 0 <= k < |docs| ::
              && docs[k] == r.result.value.value
              && HasKey(docs[k], c, id)
              && forall j | 0 <= j < k :: !HasKey(docs[j], c, id))
  {
    var all := GetAll(a, c, load);
    match all.result
    case Failure(e) => Step(all.adapter, Failure(e))
    case Success(docs) =>
      match FindIndex(docs, d => HasKey(d, c, id))
      case None => Step(all.adapter, Success(None))
      case Some(k) => Step(all.adapter, Success(Some(docs[k])))
  }

  /** createEvent / createStudent: the record with the generated id set,
      appended to the cache and returned. */
  function Create(a: Adapter, c: Collection, load: Load, record: Doc, newId: string): (r: Step<Doc>)
    ensures r.result.Failure? <==> GetAll(a, c, load).result.Failure?
    ensures r.result.Failure? ==> r.adapter == a
    ensures r.result.Success? ==>
      var docs := GetAll(a, c, load).result.value;
      var created := r.result.value;
      && HasKey(created, c, newId)
      && created.Keys == record.Keys + {KeyField(c)}
      && (forall k | k in record && k != KeyField(c) :: created[k] == record[k])
      && CacheOf(r.adapter, c) == Some(docs + [created])
      && (forall c' | c' != c :: CacheOf(r.adapter, c') == CacheOf(a, c'))
  {
    var created := record[KeyField(c) := JStr(newId)];
    var all := GetAll(a, c, load);
    match all.result
    case Failure(e) => Step(all.adapter, Failure(e))
    case Success(docs) => Step(WithCache(all.adapter, c, docs + [created]), Success(created))
  }

  /** updateEvent / updateStudent: spreads the patch over the first record
      with the id; throws when there is none. */
  function Update(a: Adapter, c: Collection, load: Load, id: string, patch: Doc): (r: Step<()>)
    ensures GetAll(a, c, load).result.Failure? ==> r == Step(a, Failure(GetAll(a, c, load).result.error))
    ensures GetAll(a, c, load).result.Success? ==>
      var docs := GetAll(a, c, load).result.value;
      && ((forall j | 0 <= j < |docs| :: !HasKey(docs[j], c, id)) ==>
            r == Step(GetAll(a, c, load).adapter, Failure(NotFound(c, id))))
      && ((exists j | 0 <= j < |docs| :: HasKey(docs[j], c, id)) ==>
            && r.result.Success?
            && (forall c' | c' != c :: CacheOf(r.adapter, c') == CacheOf(a, c'))
            && CacheOf(r.adapter, c).Some?
            && var after := CacheOf(r.adapter, c).value;
            && |after| == |docs|
            && exists k | 0 <= k < |docs| ::
                 && HasKey(docs[k], c, id)
                 && (forall j | 0 <= j < k :: !HasKey(docs[j], c, id))
                 && after[k] == Spread(docs[k], patch)
                 && forall j | 0 <= j < |docs| && j != k :: after[j] == docs[j])
  {
    var all := GetAll(a, c, load);
    match all.result
    case Failure(e) => Step(all.adapter, Failure(e))
    case Success(docs) =>
      match FindIndex(docs, d => HasKey(d, c, id))
      case None => Step(all.adapter, Failure(NotFound(c, id)))
      case Some(k) => Step(WithCache(all.adapter, c, docs[k := Spread(docs[k], patch)]), Success(()))
  }

  /** deleteEvent: drops every event with the id. A missing id is not an
      error. */
  function DeleteEvent(a: Adapter, load: Load, id: string): (r: Step<()>)
    ensures r.result.Failure? <==> GetAll(a, Events, load).result.Failure?
    ensures r.result.Failure? ==> r.adapter == a
    ensures r.result.Success? ==>
      var docs := GetAll(a, Events, load).result.value;
      && r.adapter.studentsCache == a.studentsCache
      && r.adapter.eventsCache.Some?
      && var after := r.adapter.eventsCache.value;
      && (forall j | 0 <= j < |after| :: !HasKey(after[j], Events, id))
      && (forall d :: multiset(after)[d] == if HasKey(d, Events, id) then 0 else multiset(docs)[d])
      && IsSubsequence(after, docs)
  {
    var all := GetAll(a, Events, load);
    match all.result
    case Failure(e) => Step(all.adapter, Failure(e))
    case Success(docs) =>
      var keep := (d: Doc) => !HasKey(d, Events, id);
      var after := Filter(docs, keep);
      assert forall d :: multiset(after)[d] == if HasKey(d, Events, id) then 0 else multiset(docs)[d] by {
        forall d
          ensures multiset(after)[d] == if HasKey(d, Events, id) then 0 else multiset(docs)[d]
        {
          FilterCount(docs, keep, d);
        }
      }
      Step(WithCache(all.adapter, Events, after), Success(()))
  }

  /** The filter predicate of queryEvents and queryStudents. */
  function Matches(filter: QueryFilter): Doc -> bool {
    (d: Doc) => MatchesAll(d, filter)
  }

  /** queryEvents / queryStudents: the records satisfying every filter
      entry, in cache order. */
  function Query(a: Adapter, c: Collection, load: Load, filter: QueryFilter): (r: Step<seq<Doc>>)
    ensures r.adapter == GetAll(a, c, load).adapter
    ensures r.result.Failure? <==> GetAll(a, c, load).result.Failure?
    ensures r.result.Success? ==>
      var docs := GetAll(a, c, load).result.value;
      && (forall j | 0 <= j < |r.result.value| :: MatchesAll(r.result.value[j], filter))
      && (forall d :: d in r.result.value <==> d in docs && MatchesAll(d, filter))
      && (forall d :: multiset(r.result.value)[d] == if MatchesAll(d, filter) then multiset(docs)[d] else 0)
      && IsSubsequence(r.result.value, docs)
  {
    var all := GetAll(a, c, load);
    match all.result
    case Failure(e) => Step(all.adapter, Failure(e))
    case Success(docs) =>
      var keep := Matches(filter);
      var found := Filter(docs, keep);
      assert forall d :: multiset(found)[d] == if MatchesAll(d, filter) then multiset(docs)[d] else 0 by {
        forall d
          ensures multiset(found)[d] == if MatchesAll(d, filter) then multiset(docs)[d] else 0
        {
          FilterCount(docs, keep, d);
        }
      }
      Step(all.adapter, Success(found))
  }

  // --- Properties relating several calls ---

  /** Once a load has succeeded, later reads serve the cache and ignore what
      the file would yield now. */
  lemma LoadsOnce(a: Adapter, c: Collection, first: Load, later: Load)
    requires GetAll(a, c, first).result.Success?
    ensures GetAll(GetAll(a, c, first).adapter, c, later) == GetAll(GetAll(a, c, first).adapter, c, first)
    ensures GetAll(GetAll(a, c, first).adapter, c, later).result == GetAll(a, c, first).result
  {
  }

  /** Deleting an id twice leaves the same cache as deleting it once. */
  lemma {:induction false} DeleteIdempotent(a: Adapter, load: Load, id: string)
    requires DeleteEvent(a, load, id).result.Success?
    ensures DeleteEvent(DeleteEvent(a, load, id).adapter, load, id) == DeleteEvent(a, load, id)
  {
    var once := DeleteEvent(a, load, id);
    var docs := GetAll(a, Events, load).result.value;
    var keep := (d: Doc) => !HasKey(d, Events, id);
    var after := Filter(docs, keep);
    assert once.adapter == WithCache(GetAll(a, Events, load).adapter, Events, after);
    FilterKeepsAll(after, keep);
  }

  /** Deleting an id no event carries leaves the cache as loaded. */
  lemma DeleteMissingIsNoOp(a: Adapter, load: Load, id: string)
    requires GetAll(a, Events, load).result.Success?
    requires forall d | d in GetAll(a, Events, load).result.value :: !HasKey(d, Events, id)
    ensures DeleteEvent(a, load, id) == Step(GetAll(a, Events, load).adapter, Success(()))
  {
    var docs := GetAll(a, Events, load).result.value;
    var keep := (d: Doc) => !HasKey(d, Events, id);
    FilterKeepsAll(docs, keep);
  }

  /** A query with no entries returns every cached record, in order. */
  lemma EmptyQueryReturnsAll(a: Adapter, c: Collection, load: Load)
    requires GetAll(a, c, load).result.Success?
    ensures Query(a, c, load, map[]).result == GetAll(a, c, load).result
  {
    var docs := GetAll(a, c, load).result.value;
    FilterKeepsAll(docs, Matches(map[]));
  }

  /** A created record can be read back by its generated id, unless an
      earlier record already carries that id. */
  lemma CreateThenGet(a: Adapter, c: Collection, load: Load, record: Doc, newId: string, later: Load)
    requires Create(a, c, load, record, newId).result.Success?
    requires forall d | d in GetAll(a, c, load).result.value :: !HasKey(d, c, newId)
    ensures Get(Create(a, c, load, record, newId).adapter, c, later, newId).result
         == Success(Some(Create(a, c, load, record, newId).result.value))
  {
    var docs := GetAll(a, c, load).result.value;
    var created := Create(a, c, load, record, newId).result.value;
    var after := docs + [created];
    assert after[|docs|] == created;
    assert forall j | 0 <= j < |docs| :: after[j] == docs[j];
  }
}

=== FILE: user_model.dfy ===
/** The user record of src/models/user.ts and its XP-enriched form. The XP
    data type is declared outside the modelled files, so it is a type
    parameter `X` wherever it appears. */
module UserModel {
  import opened Wrappers

  datatype SocialLinks = SocialLinks(
    primary: Option<string>,
    linkedin: Option<string>,
    github: Option<string>,
    portfolio: Option<string>,
    instagram: Option<string>)

  datatype User = User(
    uid: string,
    name: Nullable<string>,
    email: Nullable<string>,
    photoURL: Nullable<string>,
    batch: Option<string>,
    batchYear: Option<int>,
    studentId: Option<string>,
    bio: Option<string>,
    skills: Option<seq<string>>,
    hasLaptop: Option<bool>,
    socialLinks: Option<SocialLinks>,
    createdAt: Option<string>,
    lastLogin: Option<string>,
    profileUpdatedAt: Option<string>,
    lastUpdatedAt: Option<string>)

  /** `{ ...user, xpData }`: the user's fields plus XP data, which may be
      null. */
  datatype EnrichedUser<X> = EnrichedUser(user: User, xpData: Option<X>)

  /** `k` is the position of the first user with the uid. */
  predicate FirstWithUid(users: seq<User>, uid: string, k: int) {
    0 <= k < |users| && users[k].uid == uid && forall i | 0 <= i < k :: users[i].uid != uid
  }
}

=== FILE: wrappers.dfy ===
/** Values shared by every module of the model: `Option` stands for a
    TypeScript `T | null` (or for an optional key that cannot be null),
    `Nullable` for an optional key that may also be null, and `Result` for a
    call that either yields a value or throws. */
module Wrappers {

  datatype Option<+T> = None | Some(value: T)

  /** A key that may be absent, present with null, or present with a value. */
  datatype Nullable<+T> = Absent | Null | Val(value: T)

  datatype Result<+T, +E> = Success(value: T) | Failure(error: E)
}
